=== FILE: README.md ===
# edit-context-menu, modelled in Dafny

edit-context-menu is a Windows desktop tool for editing the Explorer right-click menu. Each menu command lives in the registry under `HKEY_CLASSES_ROOT`:

- A *shell* container such as `Directory\shell` holds one folder key per command.
- The folder key's default value is the title, and its `Icon` value is the icon reference.
- An optional `command` subkey holds the command line in its default value.

The tool does the following:

- lists, adds, edits and removes these folders;
- can export chosen registry subtrees to a timestamped `.reg` backup;
- reads its window size, options and the configured keys from an INI file;
- keeps per-key command lists, alerts and an open modal in an immediate-mode GUI.

This project models that core mostly as pure Dafny functions over immutable values. The exception is the shared path cell (`KeyPath`, an `Rc<RefCell<…>>` in the source). It is a Dafny class, so aliasing through it is real, and the operations that allocate or mutate it are methods:

| file | module | models |
|---|---|---|
| `base.dfy` | `Base` | `Option`, `Result` and `Outcome` (a success/failure without a value) |
| `strings.dfy` | `Strings` | `split_once`, `str::find`, `split`/`join` and ASCII lower-casing as used by the source, with their round-trip lemmas |
| `types.dfy` | `Types` | `edit_context_lib/types.rs`: the shared `KeyPath` cell (a Dafny class, so aliasing is real), `ContextCommandInfo`, `KeyProps` and `Key` |
| `registry.dfy` | `Registry` | the registry as `winreg` presents it: keys with case-insensitive value and subkey names, where a subkey keeps the spelling it was created with. An empty segment opens the key itself. Paths are opened one segment at a time and never created. Writing below a path is a tree update |
| `context.dfy` | `Context` | `edit_context_lib/addtocontext.rs`: validate, add, list and remove |
| `parsing.dfy` | `Parsing` | `parsing.rs`: `folderize_title`, `sanitize_path` and `sanitize_command` |
| `icon.dfy` | `Icon` | `bgra_to_rgba` from `icon.rs` |
| `backup.dfy` | `Backup` | `edit_context_lib/backup.rs`: collecting sections, the section names, the timestamp and the file name |
| `config.dfy` | `Config` | `resources/config.rs`: building `AppConfig` from a parsed INI file |
| `app.dfy` | `App` | `app.rs` with `ui/state.rs` and `ui/message.rs`: the list-state machine and `handle_message` |

The outside world enters as parameters:

- The registry is a `Registry.Node` value.
- What `enum_keys` reports for a key is a `names` sequence. `Registry.Enumerates` ties it to the key: it names every subkey exactly once, under the spelling the subkey was created with, in an order the registry picks.
- UUIDs come from a counter, `IdSupply`: an id is fresh when it is at or above the counter.
- The home directory is `home: Option<string>`.
- The clock reading is a `DateTime`.
- The resource directory is `Option<string>`.
- Whether `write_to` succeeded is a boolean.
- `str::parse::<f32>` is a function parameter.
- In the GUI state machine, the registry calls, the icon loader and `load_item` are the functions of an `Env` record. Every operation is therefore stated for every outcome of those calls.

### Behaviour of the code worth noting

- **Backup, failing paths.** A backup fails as a whole if any path fails to open or the exporter's `with_all_subkeys` fails on a subtree. Each step of the fold opens its path before looking at the accumulated result, so when some path fails to open, the error reported is that of the *last* path that fails to open, and export failures are then never reported (`Backup.CollectLastError`). When every path opens, the error is the exporter's first failure (`Backup.CollectExportError`).
- **Backup, no paths.** With an empty path list, `backup_paths` still writes a file, holding no sections (`Backup.BackupPaths` with `paths == []`).
- **Command-less entries.** `add_to_context_window` may be given an empty command, which the comment at `src/edit_context_lib/addtocontext.rs:68` explains is for multi-level menu options. Such a folder gets no `command` subkey. `get_current_context_window` skips every folder without one, so these entries are never listed back (`Context.AddEmptyCommandNotListed`).
- **Folder names that collide.** `add_command` derives the folder from the title the user typed. A title such as "Open" therefore reopens an existing `open` verb and overwrites its title and icon, and the listing reports the existing spelling (`Context.AddEffect`, `Context.AddThenList`).
- **Commands that share an id.** Rows are compared by id only (`src/edit_context_lib/types.rs:52-54`). The create dialog starts every new command from `StdCommand::default()` (`src/ui/appmodal.rs:18-20`), whose id is the nil UUID, and `add_command` keeps that id. So the commands added since the last reload all share one id. Removing one of them drops every such row from the list, while the other folders stay in the registry (`App.AddSharedIdThenRemove`). Editing one always rewrites the first such row (`App.EditSharedIdFirst`).
- **Empty path segments.** `with_path("")` gives the one segment `""`, and a trailing `/` in a configured path adds one. `open_subkey("")` opens the key itself, so such a segment is skipped (`Registry.ResolveCanon`).

## Model

| member | source | states |
|---|---|---|
| Strings.IndexOf | src/parsing.rs:13-16 | `split_once(',')` cuts at the first comma: no result exactly when there is no comma; otherwise the index holds a comma and none comes before it |
| Strings.IndexOfAfter | src/parsing.rs:13-16 | in `a + "," + b` with no comma in `a`, the first comma is right after `a` |
| Strings.Find | src/parsing.rs:18 | `split_once("%USERPROFILE%")` finds the first occurrence at or after the start index; none means no occurrence anywhere |
| Strings.Split | src/edit_context_lib/types.rs:95 | `split("/")` gives one more piece than there are separators, and no piece holds a separator |
| Strings.Join | src/edit_context_lib/backup.rs:39 | joining no parts gives the empty string; otherwise the result begins with the first part, followed by the separator when there is a second |
| Strings.JoinSplit | src/edit_context_lib/types.rs:92-100 | joining the pieces of a split with the separator restores the string |
| Strings.SplitJoin | src/edit_context_lib/backup.rs:39 | splitting a join of separator-free parts returns the parts |
| Strings.Lower | src/edit_context_lib/addtocontext.rs:66 | value names are folded character by character to ASCII lower case; the length is kept |
| Types.New | src/edit_context_lib/types.rs:29-38 | `new` keeps the given fields and draws an id at or above the supply, which it advances past that id |
| Types.NewIsFresh | src/edit_context_lib/types.rs:29-38 | a command built by `new` is unequal to every command built before it, and the supply stays ahead of all ids |
| Types.Eq | src/edit_context_lib/types.rs:52-54 | two commands are equal exactly when their ids are equal |
| Types.Ne | src/edit_context_lib/types.rs:56-58 | `ne` holds exactly when `eq` does not |
| Types.EqIsIdentity | src/edit_context_lib/types.rs:49-59 | `eq` compares ids only, whatever the other fields hold; `ne` is exactly the negation of `eq` |
| Types.PropsFrom | src/edit_context_lib/types.rs:68-75 | `HasExt` is selected exactly by the string "HasExt"; everything else gives `None` |
| Types.NewKey | src/edit_context_lib/types.rs:85-90 | `Key::new` keeps the name, with no properties and a new, empty path cell |
| Types.PathSegments | src/edit_context_lib/types.rs:92-100 | the stored segments are the `/`-separated pieces: one more than the slashes, none containing `/`, and joining them with `/` restores the text |
| Types.WithPath | src/edit_context_lib/types.rs:92-100 | `with_path` installs a new cell holding those segments and keeps name and properties |
| Types.WithProps | src/edit_context_lib/types.rs:102-105 | only the properties change; the path cell is still shared |
| Types.ClonePath | src/edit_context_lib/types.rs:107-109 | `clone_path` returns the same cell, not a copy |
| Types.WithExtension | src/edit_context_lib/types.rs:111-119 | with `HasExt`, segment 0 of the shared cell is overwritten in place and the rest kept; with no properties nothing changes |
| Types.DeepClone | src/edit_context_lib/types.rs:121-127 | `deep_clone` copies the segments into a new cell |
| Types.ExtensionIsShared | src/edit_context_lib/types.rs:107-119 | an extension written through a key is seen through every key sharing its cell |
| Types.DeepCloneIsolates | src/edit_context_lib/types.rs:111-127 | an extension written through a deep clone appears only in the clone's new cell |
| Registry.SetValue | src/edit_context_lib/addtocontext.rs:65-66 | the written value reads back under any spelling of its name; values whose names fold differently and all subkeys are unchanged |
| Registry.GetValue | src/edit_context_lib/addtocontext.rs:97-102 | a value is looked up by its folded name: found exactly when a value of that folded name is stored, giving its data |
| Registry.OpenSubkey | src/edit_context_lib/addtocontext.rs:57-60 | an empty name opens the key itself; any other name opens exactly when a subkey of that folded name exists. Nothing is created, and a failure names what was asked for |
| Registry.OpenSubkeyFolds | src/edit_context_lib/addtocontext.rs:95 | two spellings that fold alike open the same subkey |
| Registry.CreateSubkey | src/edit_context_lib/addtocontext.rs:62 | `create_subkey` opens the existing subkey matching the name case-insensitively, unchanged, or gives a new empty one called by that name |
| Registry.SetChild | src/edit_context_lib/addtocontext.rs:62 | storing a subkey keeps the key's name, its values and the other subkeys, and adds the folded name |
| Registry.DeleteSubkeyAll | src/edit_context_lib/addtocontext.rs:147 | deleting fails exactly when no subkey matches the name case-insensitively, reporting that name as not found; otherwise it drops that whole subtree and keeps the values and the other subkeys |
| Registry.ResolveFails | src/edit_context_lib/addtocontext.rs:53-60 | opening a path segment by segment fails only at a non-empty segment and reports that segment; a path of empty segments opens the starting key |
| Registry.ResolveCanon | src/edit_context_lib/addtocontext.rs:53-60 | two paths that walk through the same keys, ignoring case and empty segments, open the same key or both fail |
| Registry.ResolvePut | src/edit_context_lib/addtocontext.rs:53-60 | a key written back below a resolved path reads back from that path |
| Registry.PutResolved | src/edit_context_lib/addtocontext.rs:53-60 | writing back the key found at a path leaves the registry as it was |
| Registry.PutPut | src/edit_context_lib/addtocontext.rs:53-60 | of two writes at the same path, the later wins |
| Registry.PutFrame | src/edit_context_lib/addtocontext.rs:53-60 | a write at one path leaves every path that diverges from it, compared case-insensitively and ignoring empty segments, resolving as before |
| Registry.PutAbove | src/edit_context_lib/addtocontext.rs:53-60 | a write at one path keeps every key strictly above it, the root included, opening with the same name, values and set of subkeys |
| Registry.ResolveAppend | src/edit_context_lib/addtocontext.rs:53-60 | opening `p + q` segment by segment is opening `p`, then `q` from there, with the first missing segment's error |
| Context.ConvertSubkey | src/edit_context_lib/addtocontext.rs:13-20 | `convert_subkey` gives a new cell holding the given segments |
| Context.Validate | src/edit_context_lib/addtocontext.rs:22-38 | validation fails exactly when the command is not `Valid` (title, folder or path empty), with the "invalid arguments" error |
| Context.AddToContext | src/edit_context_lib/addtocontext.rs:40-75 | add fails exactly when validation fails (reported as invalid) or a path segment is missing (reported with that segment's error); a failure leaves the registry unchanged |
| Context.FixedNamesFold | src/edit_context_lib/addtocontext.rs:66-100 | the value written as "Icon" is the value read as "icon", and "command" is already in its stored form |
| Context.WriteEntry | src/edit_context_lib/addtocontext.rs:62-72 | the folder keeps its name and its other values and gets the title and icon. It gains a `command` subkey holding the command exactly when the command is non-empty; its other subkeys are kept. A `command` subkey already there is reopened: it keeps its spelling, its subkeys and its other values |
| Context.ReadEntry | src/edit_context_lib/addtocontext.rs:95-102 | an entry is read exactly when the subkey opens and its default value, its "icon" value and its `command` subkey's default value are all present, and it carries exactly those |
| Context.WriteThenRead | src/edit_context_lib/addtocontext.rs:62-102 | a folder written with a non-empty command reads back as its title, icon and command, under any spelling of its name |
| Context.ReadEntryFolds | src/edit_context_lib/addtocontext.rs:95-102 | two spellings that fold alike read the same entry |
| Context.AddEffect | src/edit_context_lib/addtocontext.rs:62-72 | after an add, the parent keeps its values and other subkeys and has a subkey under the folder's folded name, which keeps the spelling of any subkey it reopened. The folder holds the title and icon while keeping its other values. It gains a `command` subkey holding the command exactly when the command is non-empty, and keeps its other subkeys; a reopened `command` subkey keeps its spelling, subkeys and other values |
| Context.AddFrame | src/edit_context_lib/addtocontext.rs:40-75 | an add changes nothing at any path that diverges from the command's path, and every key on the way down to the parent, the root included, keeps its name, values and subkeys |
| Context.WriteEntryTwice | src/edit_context_lib/addtocontext.rs:62-72 | writing a folder's entries twice is writing them once |
| Context.AddIdempotent | src/edit_context_lib/addtocontext.rs:40-75 | repeating a successful add leaves the registry exactly as the first add did |
| Context.ListEntries | src/edit_context_lib/addtocontext.rs:88-118 | when the enumerated names fold to distinct keys, so do the listed folders: at most one command per subkey. Each command's folder is an enumerated name, it shares the listed path cell, and it carries what that folder's title, "icon" and `command` default values hold. Ids are fresh, in listing order |
| Context.ListEntriesComplete | src/edit_context_lib/addtocontext.rs:88-118 | every enumerated subkey that can be read is listed; only unreadable ones are skipped |
| Context.GetCurrentContextWindow | src/edit_context_lib/addtocontext.rs:77-121 | given the registry's own enumeration of the key, listing fails exactly when a path segment is missing, with that error. Otherwise every listed command shares the path cell, is named as its subkey was created, and reflects its folder's contents; no two listed commands name the same subkey |
| Context.ReadableListed | src/edit_context_lib/addtocontext.rs:88-118 | a readable subkey is listed under its stored spelling with its title, icon and command, whatever spelling it is looked up by |
| Context.ListingExact | src/edit_context_lib/addtocontext.rs:88-118 | with the registry's own enumeration, a subkey is listed, under its created name, exactly when its title, icon and command can all be read |
| Context.RemoveFromContext | src/edit_context_lib/addtocontext.rs:123-150 | remove fails exactly when validation fails (reported as invalid), a path segment is missing (reported with that segment's error) or no subkey matches the folder case-insensitively (reported as the folder not found) |
| Context.RemoveEffect | src/edit_context_lib/addtocontext.rs:136-147 | after a remove, the folder's subtree is gone, the parent keeps its values and other subkeys, the keys above the parent keep their names, values and subkeys, and diverging paths are untouched |
| Context.AddThenList | src/edit_context_lib/addtocontext.rs:40-121 | after adding a command with a non-empty command line, listing its path with the registry's enumeration shows it back with the same title, icon, command and path. The folder is the one given when it was new, and otherwise the spelling of the subkey it reopened |
| Context.AddEmptyCommandNotListed | src/edit_context_lib/addtocontext.rs:68-102 | a new command added with an empty command line gets no `command` subkey, so the listing never shows it under any spelling |
| Context.AddThenRemove | src/edit_context_lib/addtocontext.rs:40-150 | removing right after adding succeeds, the folder's subkey is gone, and the listing no longer shows it under any spelling |
| Parsing.FolderizeTitle | src/parsing.rs:8-10 | the folder name holds no space, is no longer than the title, and keeps every other character with its count |
| Parsing.FolderizeAppend | src/parsing.rs:8-10 | spaces are removed piecewise, so the other characters keep their order |
| Parsing.FolderizeFixed | src/parsing.rs:8-10 | a title is its own folder name exactly when it has no space |
| Parsing.FolderizeIdempotent | src/parsing.rs:8-10 | folderizing twice is folderizing once |
| Parsing.SanitizePath | src/parsing.rs:12-30 | text with no comma and no placeholder is returned unchanged; without a home directory the result is never longer than the input |
| Parsing.SanitizeIgnoresAfterComma | src/parsing.rs:13-16 | whatever follows the first comma never affects the result |
| Parsing.SanitizeExpandsProfile | src/parsing.rs:18-27 | everything up to and including the first "%USERPROFILE%" is replaced by the home directory, or dropped when there is none |
| Parsing.SanitizeCommand | src/parsing.rs:32-40 | the new command has a sanitized title and icon, keeps command, folder and path cell, and has an id unequal to any issued earlier |
| Icon.BgraToRgba | src/icon.rs:135-153 | the output is the input with the first and third byte of each complete 4-byte group swapped |
| Icon.ReorderingGroups | src/icon.rs:140-147 | every complete group B,G,R,A comes out as R,G,B,A |
| Icon.ReorderingKeeps | src/icon.rs:148-151 | the output has the input's length; the trailing `len % 4` bytes are copied unchanged, and green and alpha never move |
| Icon.ReorderTwice | src/icon.rs:135-153 | the reorder is its own inverse: reordering the output gives the input back |
| Backup.HkeyToString | src/edit_context_lib/backup.rs:14-19 | only `HKEY_CLASSES_ROOT` has a name; every other root maps to the empty string |
| Backup.SectionNameParts | src/edit_context_lib/backup.rs:39 | a section name is the root's name, then `\`, then the path's segments joined by `\` |
| Backup.SectionNameSplits | src/edit_context_lib/backup.rs:39 | a section name splits at `\` back into the root name and the path segments |
| Backup.CollectOk | src/edit_context_lib/backup.rs:29-43 | the fold succeeds exactly when every path opens and `with_all_subkeys` accepts its subtree, and then hands the exporter one section per path, in order, with that path's name and key |
| Backup.CollectLastError | src/edit_context_lib/backup.rs:29-43 | when some path fails to open, the fold fails with the error of the last path that fails to open, whatever the exporter does |
| Backup.CollectExportError | src/edit_context_lib/backup.rs:29-43 | when every path opens, the fold can only fail with the message of the first section `with_all_subkeys` refuses, every earlier section being accepted |
| Backup.DigitsParse | src/edit_context_lib/backup.rs:25 | a zero-padded field spells its number back |
| Backup.Timestamp | src/edit_context_lib/backup.rs:21-26 | `%Y-%m-%d-%H-%M-%S` is 19 characters: digits with dashes at positions 4, 7, 10, 13 and 16 |
| Backup.TimestampFields | src/edit_context_lib/backup.rs:21-26 | year, month, day, hour, minute and second read back from their fixed positions |
| Backup.FileName | src/edit_context_lib/backup.rs:53 | the file name is "backup-", the timestamp and ".reg" |
| Backup.JoinPath | src/edit_context_lib/backup.rs:53 | the path starts with the directory and ends with the file name, with at most one separator inserted |
| Backup.BackupPaths | src/edit_context_lib/backup.rs:28-58 | the backup fails as unresolved exactly when some path fails to open, and then with the error of the last path that fails, every later path opening. It fails with an export error only when every path opens, with the first refused section's message. With no resource directory nothing is written and the call succeeds. When every path opens and is exported and the directory exists, `backup-<timestamp>.reg` in the directory is written with one section per path, in order, if `write_to` succeeds, and the call fails with the write error if it does not |
| Config.Get | src/resources/config.rs:26 | a property lookup finds the first entry with the name; none means no entry has it |
| Config.GetParseOr | src/resources/config.rs:24-30 | the parsed value when the key is present and parses, otherwise the key's default |
| Config.ParseBool | src/resources/config.rs:42 | exactly "true" and "false" parse |
| Config.KeysOf | src/resources/config.rs:51-59 | one key per `RegKeys` entry, in file order, named by the entry, with no properties and exactly the segments `with_path` stores: the path split at `/`, so an empty path gives one empty segment |
| Config.PropsFor | src/resources/config.rs:70-76 | a key's properties come from the first `RegProps` entry with its name, if any |
| Config.MergeProps | src/resources/config.rs:61-84 | every key keeps its place, name and path; a key named in `RegProps` takes that entry's properties, and any other key is unchanged |
| Config.FromIni | src/resources/config.rs:32-95 | the title is fixed. With `[Options]`, width, height, auto-backup and icon size are each `get_parse_or` of their key in it; without it the defaults 400, 600, true and 25 hold. Without `[RegKeys]` there are no keys; otherwise one key per entry with its split path and the properties `RegProps` gives it |
| Config.BuildKeys | src/resources/config.rs:56 | each configured key gets its own new path cell holding its segments |
| App.Alert | src/app.rs:179-181 | exactly one alert is queued and nothing else changes |
| App.WithIcon | src/parsing.rs:42-52 | a row is the command itself with the image loaded for its icon reference |
| App.CloseModal | src/app.rs:175-177 | the modal is closed and nothing else changes |
| App.Prepared | src/app.rs:103-104 | the command to add is the same command, placed under the open key's shared cell, with its folder derived from the title |
| App.AddCommandOp | src/app.rs:101-117 | always closes the modal and keeps the path and the number of lists. With no open path, or if the write fails, exactly one alert is added and the lists are unchanged. On success, only the open list grows, by the prepared command with its icon |
| App.FindSame | src/app.rs:123-127 | the first row holding the same command by id, or none when no row does |
| App.EditCommandOp | src/app.rs:119-152 | with no open path, a failed write, or no matching row, exactly one alert is added and the lists are unchanged. Otherwise only the first matching row of the open list is replaced; its image is kept when the icon reference is unchanged and reloaded when it differs |
| App.Without | src/app.rs:158-162 | the kept rows are exactly the rows whose command differs from the removed one |
| App.WithoutAppend | src/app.rs:158-162 | filtering is done piecewise, so kept rows stay in their order |
| App.WithoutAbsent | src/app.rs:158-162 | a list without the command is left as it is |
| App.RemoveCommandOp | src/app.rs:154-173 | with no open path or a failed delete, exactly one alert is added and the lists are unchanged. On success only the open list changes, to `Without` it: the rows of other commands, in their order and number |
| App.SetPathOp | src/app.rs:205-207 | only the open path changes |
| App.LoadAll | src/app.rs:53-58 | collecting succeeds exactly when every key loads, giving one list per key in key order; otherwise it gives the first key's error |
| App.ReloadItems | src/app.rs:52-62 | all or nothing: either every list is replaced with no alert, or the lists stay and one alert is added |
| App.ReloadKeyOp | src/app.rs:209-218 | on success only list `index` is replaced; on failure one alert is added, the lists stay, and the open path is reset to configured key `index` |
| App.HandleMessage | src/app.rs:89-99 | each message goes to its handler: `UpdateModal` sets the modal, `SetPath` sets the path, add, edit, remove and reload are exactly their operations, and `None` changes nothing. Every message keeps the keys and the number of lists and adds at most one alert; add, edit and remove close the modal |
| App.AddThenRemoveRestores | src/app.rs:101-173 | adding a command whose id no row of the open list carries, and then removing it, restores the lists |
| App.AddSharedIdThenRemove | src/app.rs:101-173 | after two commands with the same id are added, removing the first also drops the second's row: the open list is filtered of that id |
| App.WithoutSameId | src/app.rs:158-162 | the removal filter depends on the command's id alone |
| App.EditSharedIdFirst | src/app.rs:119-152 | of two rows carrying the edited command's id, the later one is never rewritten |
| App.SanitizeAll | src/app.rs:28-30 | each listed command is sanitized in listing order, and the supply advances by their number |
| App.SanitizeAllFresh | src/app.rs:28-30 | sanitized commands keep command, folder and path and get fresh ids, increasing in listing order |
| App.LoadItem | src/app.rs:26-38 | loading fails exactly when the key's path does not open, with the "Failed to get current context window of" message. Otherwise there is one row per listed command, in listing order: the command sanitized under a fresh id, sharing the key's path cell, with its icon's image |

## Left out

- Names are folded with ASCII lower-casing only. The registry's own case folding of non-ASCII letters is not modelled.
- A `\` inside a folder name or path segment is not modelled: the registry would treat it as a path separator and address a nested key. The model treats it as an ordinary character.
- `create_subkey` and `delete_subkey_all` with an empty name, which act on the key itself, are not modelled. The core never passes one: the folder is validated non-empty, and "command" is fixed.
- Store failures other than a missing key are not modelled: access denied, a failing `set_value` or `create_subkey`, and the partial folder such a failure would leave. Only `NotFound` is.
- Registry values are strings only. `get_value::<String>` on a value of another type is not modelled.
- `RegWriter` is not part of this model: `with_all_subkeys`, the `.reg` encoding and `write_to`. The exporter is modelled as the list of sections it receives. The outcome of `with_all_subkeys` for each section is a parameter (`Backup.Exporter`), as is the outcome of `write_to`.
- `get_resource_path` is a parameter, and the error it logs is not modelled.
- Icon loading is a parameter: `command_with_icon`, `get_images_from_exe` and the shell32 fallback.
- GUI rendering is not modelled: `render_modal`, `draw_alerts`, `update`, and the menus and modal widgets in `ui/`.
- These sources are not part of this model: `addtopath.rs`, `install.rs`, `main.rs`, `build.rs` and the unused `_.rs`.
- Logging and `println!` output are not modelled.
- Randomness, the clock and the environment are parameters: UUIDs are drawn from a counter, `Local::now()` is a `DateTime`, and `env::home_dir()` is `home`.
- `f32` values are reals, and their parsing is a parameter.
- The INI file format is not modelled: the parsed file is given as a map from section name to entries in file order, and how the parser treats repeated sections is not modelled.
- Backup.JoinPath: models `PathBuf::join` with a relative file name only. Absolute or drive-prefixed names cannot occur, because the file name is generated.
- Backup.BackupPaths: requires a date the `%Y` format prints with four digits, that is a year below 10000.
- Types.New: states only that the id is at or above the supply and that the supply moves past it, standing for UUID uniqueness rather than the random draw.
- Types.WithExtension: requires a non-empty path when the key has `HasExt`, because the source indexes segment 0 and would panic.
- App.AddCommandOp, App.EditCommandOp, App.RemoveCommandOp and App.ReloadKeyOp require the list index to be in range only on the branch that indexes it, because out-of-range indexing panics in the source.
- App.LoadItem: gives the `io::Error` text for a missing key as one fixed message.
- App.HandleMessage: does not include `load_backup`, which is commented out in the source.

=== FILE: app.dfy ===
/** `app.rs` with `ui/state.rs` and `ui/message.rs`: how the application's
    per-key command lists, alerts, modal and open path change in response to
    messages. The registry writes, the listing and the icon loader are given
    as functions (`Env`), so each operation is stated for every outcome. */
module App {
  import opened Base
  import opened Types
  import opened Parsing
  import Icon
  import Registry
  import Context

  /** An `egui::ColorImage`: the decoded icon shown next to a command. */
  datatype Image = Image(rgba: seq<Icon.byte>)

  /** One row of a command list: the command and its icon. */
  type Item = (CommandInfo, Image)

  /** `AppModal`. */
  datatype Modal = CreateModal(cmd: CommandInfo) | EditModal(cmd: CommandInfo)
                 | DeleteModal(cmd: CommandInfo) | NoModal

  /** `AppState`: the open key and its index, pending alerts and one command list per key. */
  datatype AppState = AppState(
    modal: Modal,
    path: Option<(Key, nat)>,
    alerts: seq<string>,
    items: seq<seq<Item>>)

  /** `Message`. */
  datatype Message =
    | UpdateModal(modal: Modal)
    | SetPath(target: Option<(Key, nat)>)
    | ReloadKey(key: Key, index: nat)
    | AddCommand(cmd: CommandInfo)
    | UpdateCommand(cmd: CommandInfo)
    | RemoveCommand(cmd: CommandInfo)
    | NoMessage

  /** `App` without its styling: the heading, the configured keys and the state. */
  datatype App = App(heading: string, keys: seq<Key>, state: AppState)

  /** What the operations ask of the outside world: `add` is `add_to_context_window`,
      `remove` is `remove_from_context_window` (each giving its error text on
      failure), `icons` loads the image for an icon reference (`command_with_icon`)
      and `load` is `load_item` for a key. */
  datatype Env = Env(
    add: CommandInfo -> Outcome<string>,
    remove: CommandInfo -> Outcome<string>,
    icons: string -> Image,
    load: Key -> Result<seq<Item>, string>)

  const NoPathToAdd := "You must open a path to add an item."
  const NoPathToEdit := "You must open a path to edit an item."
  const NoPathToRemove := "Cannot remove item from empty path"
  const EditNotFound := "Unable to edit item, item not found!"
  const AddErrorPrefix := "Add to context error: "
  const RemoveErrorPrefix := "Error removing item: "
  const LoadErrorPrefix := "Failed to get current context window of "

  /** `alert`: queues one message and changes nothing else. */
  function Alert(s: AppState, msg: string): (r: AppState)
    ensures r.alerts == s.alerts + [msg]
    ensures r.(alerts := s.alerts) == s
  {
    s.(alerts := s.alerts + [msg])
  }

  /** `close_modal`. */
  function CloseModal(s: AppState): (r: AppState)
    ensures r.modal == NoModal && r.(modal := s.modal) == s
  {
    s.(modal := NoModal)
  }

  /** `command_with_icon`. */
  function WithIcon(cmd: CommandInfo, icons: string -> Image): (r: Item)
    ensures r.0 == cmd && r.1 == icons(cmd.icon)
  {
    (cmd, icons(cmd.icon))
  }

  /** The command `add_command` writes: placed under the open key's shared
      path, with the folder name derived from the title. */
  function Prepared(cmd: CommandInfo, key: Key): (r: CommandInfo)
    ensures r.path == key.path && r.folder == FolderizeTitle(cmd.title)
    ensures Eq(r, cmd) && r.title == cmd.title && r.icon == cmd.icon && r.command == cmd.command
  {
    cmd.(path := ClonePath(key), folder := FolderizeTitle(cmd.title))
  }

  /** Indexing `items[p_index]` after a successful `add_command` stays in bounds
      (the source panics otherwise). */
  predicate CanAdd(s: AppState, cmd: CommandInfo, env: Env)
  {
    s.path.Some? && env.add(Prepared(cmd, s.path.value.0)).Pass? ==> s.path.value.1 < |s.items|
  }

  /** `add_command`. */
  function AddCommandOp(s: AppState, cmd: CommandInfo, env: Env): (r: AppState)
    requires CanAdd(s, cmd, env)
    ensures r.modal == NoModal && r.path == s.path && |r.items| == |s.items|
    ensures s.path.None? ==> r.items == s.items && r.alerts == s.alerts + [NoPathToAdd]
    ensures s.path.Some? && env.add(Prepared(cmd, s.path.value.0)).Fail? ==>
      r.items == s.items &&
      r.alerts == s.alerts + [AddErrorPrefix + env.add(Prepared(cmd, s.path.value.0)).error]
    ensures s.path.Some? && env.add(Prepared(cmd, s.path.value.0)).Pass? ==>
      var p := s.path.value.1;
      && r.alerts == s.alerts
      && r.items[p] == s.items[p] + [WithIcon(Prepared(cmd, s.path.value.0), env.icons)]
      && forall q :: 0 <= q < |s.items| && q != p ==> r.items[q] == s.items[q]
  {
    match s.path
    case None => CloseModal(Alert(s, NoPathToAdd))
    case Some((key, p)) =>
      var cmd' := Prepared(cmd, key);
      match env.add(cmd')
      case Pass => CloseModal(s.(items := s.items[p := s.items[p] + [WithIcon(cmd', env.icons)]]))
      case Fail(e) => CloseModal(Alert(s, AddErrorPrefix + e))
  }

  /** The first position of a row holding the same command (`find` with `==`). */
  function FindSame(items: seq<Item>, cmd: CommandInfo): (r: Option<nat>)
    ensures r.None? <==> forall i :: 0 <= i < |items| ==> Ne(items[i].0, cmd)
    ensures r.Some? ==> r.value < |items| && Eq(items[r.value].0, cmd)
    ensures r.Some? ==> forall i :: 0 <= i < r.value ==> Ne(items[i].0, cmd)
    decreases |items|
  {
    if |items| == 0 then None
    else if Eq(items[0].0, cmd) then Some(0)
    else match FindSame(items[1..], cmd)
      case None => None
      case Some(i) => Some(i + 1)
  }

  /** Indexing `items[p_index]` after a successful write in `edit_command` stays in bounds. */
  predicate CanEdit(s: AppState, cmd: CommandInfo, env: Env)
  {
    s.path.Some? && env.add(cmd).Pass? ==> s.path.value.1 < |s.items|
  }

  /** `edit_command`: rewrites the command under its own folder (not one derived
      from the new title) and replaces the first row with the same id, reloading
      the icon only when the icon reference changed. */
  function EditCommandOp(s: AppState, cmd: CommandInfo, env: Env): (r: AppState)
    requires CanEdit(s, cmd, env)
    ensures r.modal == NoModal && r.path == s.path && |r.items| == |s.items|
    ensures s.path.None? ==> r.items == s.items && r.alerts == s.alerts + [NoPathToEdit]
    ensures s.path.Some? && env.add(cmd).Fail? ==>
      r.items == s.items && r.alerts == s.alerts + [AddErrorPrefix + env.add(cmd).error]
    ensures s.path.Some? && env.add(cmd).Pass? && FindSame(s.items[s.path.value.1], cmd).None? ==>
      r.items == s.items && r.alerts == s.alerts + [EditNotFound]
    ensures s.path.Some? && env.add(cmd).Pass? && FindSame(s.items[s.path.value.1], cmd).Some? ==>
      var p := s.path.value.1;
      var i := FindSame(s.items[p], cmd).value;
      && r.alerts == s.alerts
      && |r.items[p]| == |s.items[p]|
      && r.items[p][i].0 == cmd
      && (s.items[p][i].0.icon == cmd.icon ==> r.items[p][i].1 == s.items[p][i].1)
      && (s.items[p][i].0.icon != cmd.icon ==> r.items[p][i].1 == env.icons(cmd.icon))
      && (forall j :: 0 <= j < |s.items[p]| && j != i ==> r.items[p][j] == s.items[p][j])
      && (forall q :: 0 <= q < |s.items| && q != p ==> r.items[q] == s.items[q])
  {
    match s.path
    case None => CloseModal(Alert(s, NoPathToEdit))
    case Some((_, p)) =>
      match env.add(cmd)
      case Fail(e) => CloseModal(Alert(s, AddErrorPrefix + e))
      case Pass =>
        match FindSame(s.items[p], cmd)
        case None => CloseModal(Alert(s, EditNotFound))
        case Some(i) =>
          var cur := s.items[p][i];
          var item := if cur.0.icon != cmd.icon then WithIcon(cmd, env.icons) else (cmd, cur.1);
          CloseModal(s.(items := s.items[p := s.items[p][i := item]]))
  }

  /** The rows whose command is not `cmd`, in their order (`filter(|x| x.0 != cmd)`). */
  function Without(items: seq<Item>, cmd: CommandInfo): (r: seq<Item>)
    ensures |r| <= |items|
    ensures forall i :: 0 <= i < |r| ==> r[i] in items && Ne(r[i].0, cmd)
    ensures forall i :: 0 <= i < |items| && Ne(items[i].0, cmd) ==> items[i] in r
    decreases |items|
  {
    if |items| == 0 then []
    else
      assert forall i :: 1 <= i < |items| ==> items[i] == items[1..][i - 1];
      (if Ne(items[0].0, cmd) then [items[0]] else []) + Without(items[1..], cmd)
  }

  /** Filtering is done piecewise, so the kept rows stay in their order. */
  lemma {:induction false} WithoutAppend(a: seq<Item>, b: seq<Item>, cmd: CommandInfo)
    ensures Without(a + b, cmd) == Without(a, cmd) + Without(b, cmd)
    decreases |a|
  {
    if |a| == 0 {
      assert a + b == b;
    } else {
      assert (a + b)[0] == a[0] && (a + b)[1..] == a[1..] + b;
      WithoutAppend(a[1..], b, cmd);
    }
  }

  /** A list without the command is left alone by the filter. */
  lemma {:induction false} WithoutAbsent(items: seq<Item>, cmd: CommandInfo)
    requires forall i :: 0 <= i < |items| ==> Ne(items[i].0, cmd)
    ensures Without(items, cmd) == items
    decreases |items|
  {
    if |items| > 0 {
      WithoutAbsent(items[1..], cmd);
    }
  }

  /** Indexing `items[p_index]` after a successful removal stays in bounds. */
  predicate CanRemove(s: AppState, cmd: CommandInfo, env: Env)
  {
    s.path.Some? && env.remove(cmd).Pass? ==> s.path.value.1 < |s.items|
  }

  /** `remove_command`. */
  function RemoveCommandOp(s: AppState, cmd: CommandInfo, env: Env): (r: AppState)
    requires CanRemove(s, cmd, env)
    ensures r.modal == NoModal && r.path == s.path && |r.items| == |s.items|
    ensures s.path.None? ==> r.items == s.items && r.alerts == s.alerts + [NoPathToRemove]
    ensures s.path.Some? && env.remove(cmd).Fail? ==>
      r.items == s.items && r.alerts == s.alerts + [RemoveErrorPrefix + env.remove(cmd).error]
    ensures s.path.Some? && env.remove(cmd).Pass? ==>
      var p := s.path.value.1;
      && r.alerts == s.alerts
      && r.items[p] == Without(s.items[p], cmd)
      && (forall i :: 0 <= i < |r.items[p]| ==> r.items[p][i] in s.items[p] && Ne(r.items[p][i].0, cmd))
      && (forall i :: 0 <= i < |s.items[p]| && Ne(s.items[p][i].0, cmd) ==> s.items[p][i] in r.items[p])
      && (forall q :: 0 <= q < |s.items| && q != p ==> r.items[q] == s.items[q])
  {
    match s.path
    case None => CloseModal(Alert(s, NoPathToRemove))
    case Some((_, p)) =>
      match env.remove(cmd)
      case Pass => CloseModal(s.(items := s.items[p := Without(s.items[p], cmd)]))
      case Fail(e) => CloseModal(Alert(s, RemoveErrorPrefix + e))
  }

  /** `set_path`. */
  function SetPathOp(s: AppState, target: Option<(Key, nat)>): (r: AppState)
    ensures r.path == target && r.(path := s.path) == s
  {
    s.(path := target)
  }

  /** Loading every key's list, stopping at the first failure (`collect` into a `Result`). */
  function LoadAll(keys: seq<Key>, load: Key -> Result<seq<Item>, string>): (r: Result<seq<seq<Item>>, string>)
    ensures r.Ok? <==> forall i :: 0 <= i < |keys| ==> load(keys[i]).Ok?
    ensures r.Ok? ==> |r.value| == |keys| && forall i :: 0 <= i < |keys| ==> r.value[i] == load(keys[i]).value
    ensures r.Err? ==> exists i :: 0 <= i < |keys| && load(keys[i]) == Err(r.error) &&
                                   (forall j :: 0 <= j < i ==> load(keys[j]).Ok?)
    decreases |keys|
  {
    if |keys| == 0 then Ok([])
    else match load(keys[0])
      case Err(e) => Err(e)
      case Ok(list) =>
        match LoadAll(keys[1..], load)
        case Err(e) =>
          assert forall i :: 1 <= i < |keys| ==> keys[1..][i - 1] == keys[i];
          Err(e)
        case Ok(rest) => Ok([list] + rest)
  }

  /** `reload_items`: all or nothing. Either every key loads and the lists are
      replaced, one per key in key order, or the lists stay and one alert is added. */
  function ReloadItems(app: App, env: Env): (r: App)
    ensures r.keys == app.keys && r.state.path == app.state.path && r.state.modal == app.state.modal
    ensures (forall i :: 0 <= i < |app.keys| ==> env.load(app.keys[i]).Ok?) ==>
      r.state.alerts == app.state.alerts && |r.state.items| == |app.keys| &&
      forall i :: 0 <= i < |app.keys| ==> r.state.items[i] == env.load(app.keys[i]).value
    ensures (exists i :: 0 <= i < |app.keys| && env.load(app.keys[i]).Err?) ==>
      r.state.items == app.state.items && |r.state.alerts| == |app.state.alerts| + 1 &&
      r.state.alerts[..|app.state.alerts|] == app.state.alerts
  {
    match LoadAll(app.keys, env.load)
    case Ok(lists) => app.(state := app.state.(items := lists))
    case Err(e) => app.(state := Alert(app.state, e))
  }

  /** The indexing `reload_key` does stays in bounds: the list on success, the key on failure. */
  predicate CanReload(app: App, key: Key, index: nat, env: Env)
  {
    (env.load(key).Ok? ==> index < |app.state.items|) &&
    (env.load(key).Err? ==> index < |app.keys|)
  }

  /** `reload_key`: on success only list `index` is replaced; on failure an
      alert is added and the open path is reset to the configured key `index`
      (undoing an extension edit made on a copy). */
  function ReloadKeyOp(app: App, key: Key, index: nat, env: Env): (r: App)
    requires CanReload(app, key, index, env)
    ensures r.keys == app.keys && r.state.modal == app.state.modal
    ensures |r.state.items| == |app.state.items|
    ensures env.load(key).Ok? ==>
      && r.state.alerts == app.state.alerts && r.state.path == app.state.path
      && r.state.items[index] == env.load(key).value
      && forall q :: 0 <= q < |app.state.items| && q != index ==> r.state.items[q] == app.state.items[q]
    ensures env.load(key).Err? ==>
      && r.state.items == app.state.items
      && r.state.alerts == app.state.alerts + [env.load(key).error]
      && r.state.path == Some((app.keys[index], index))
  {
    match env.load(key)
    case Ok(list) => app.(state := app.state.(items := app.state.items[index := list]))
    case Err(e) => app.(state := SetPathOp(Alert(app.state, e), Some((app.keys[index], index))))
  }

  /** What `handle_message` needs for the handler it dispatches to. */
  predicate CanHandle(app: App, msg: Message, env: Env)
  {
    match msg
    case AddCommand(cmd) => CanAdd(app.state, cmd, env)
    case UpdateCommand(cmd) => CanEdit(app.state, cmd, env)
    case RemoveCommand(cmd) => CanRemove(app.state, cmd, env)
    case ReloadKey(key, index) => CanReload(app, key, index, env)
    case _ => true
  }

  /** `alerts` grew by at most one message, the old ones kept in order. */
  predicate AlertsExtended(before: seq<string>, after: seq<string>)
  {
    |before| <= |after| <= |before| + 1 && after[..|before|] == before
  }

  /** `handle_message`. Every message keeps the keys and the number of lists,
      and adds at most one alert. */
  function HandleMessage(app: App, msg: Message, env: Env): (r: App)
    requires CanHandle(app, msg, env)
    ensures r.keys == app.keys
    ensures |r.state.items| == |app.state.items|
    ensures AlertsExtended(app.state.alerts, r.state.alerts)
    ensures msg.AddCommand? || msg.UpdateCommand? || msg.RemoveCommand? ==> r.state.modal == NoModal
    ensures msg.NoMessage? ==> r == app
    ensures msg.UpdateModal? ==> r == app.(state := app.state.(modal := msg.modal))
    ensures msg.SetPath? ==> r == app.(state := app.state.(path := msg.target))
    ensures msg.AddCommand? ==> r == app.(state := AddCommandOp(app.state, msg.cmd, env))
    ensures msg.UpdateCommand? ==> r == app.(state := EditCommandOp(app.state, msg.cmd, env))
    ensures msg.RemoveCommand? ==> r == app.(state := RemoveCommandOp(app.state, msg.cmd, env))
    ensures msg.ReloadKey? ==> r == ReloadKeyOp(app, msg.key, msg.index, env)
  {
    match msg
    case UpdateModal(m) => app.(state := app.state.(modal := m))
    case AddCommand(cmd) => app.(state := AddCommandOp(app.state, cmd, env))
    case UpdateCommand(cmd) => app.(state := EditCommandOp(app.state, cmd, env))
    case RemoveCommand(cmd) => app.(state := RemoveCommandOp(app.state, cmd, env))
    case SetPath(target) => app.(state := SetPathOp(app.state, target))
    case ReloadKey(key, index) => ReloadKeyOp(app, key, index, env)
    case NoMessage => app
  }

  /** Adding a command and then removing it, with both writes succeeding,
      restores the open list when no row of it carried the command's id. */
  lemma AddThenRemoveRestores(s: AppState, cmd: CommandInfo, env: Env)
    requires s.path.Some? && s.path.value.1 < |s.items|
    requires env.add(Prepared(cmd, s.path.value.0)).Pass?
    requires env.remove(Prepared(cmd, s.path.value.0)).Pass?
    requires forall i :: 0 <= i < |s.items[s.path.value.1]| ==> Ne(s.items[s.path.value.1][i].0, cmd)
    ensures var added := AddCommandOp(s, cmd, env);
      RemoveCommandOp(added, Prepared(cmd, s.path.value.0), env).items == s.items
  {
    var p := s.path.value.1;
    var cmd' := Prepared(cmd, s.path.value.0);
    WithoutAppend(s.items[p], [WithIcon(cmd', env.icons)], cmd');
    WithoutAbsent(s.items[p], cmd');
    var item := WithIcon(cmd', env.icons);
    var added := AddCommandOp(s, cmd, env);
    assert added.path == s.path && added.items == s.items[p := s.items[p] + [item]];
    assert Without([item], cmd') == [];
    assert Without(s.items[p] + [item], cmd') == s.items[p];
    var removed := RemoveCommandOp(added, cmd', env);
    assert removed.items == added.items[p := Without(added.items[p], cmd')];
    assert added.items[p] == s.items[p] + [item];
    assert removed.items == s.items;
  }

  /** Rows are told apart by id alone. Two commands added with the same id
      (every command the create dialog starts from has the default, nil, id)
      cannot be removed separately: removing the first drops the second's row
      as well, although its folder stays in the registry. */
  lemma AddSharedIdThenRemove(s: AppState, a: CommandInfo, b: CommandInfo, env: Env)
    requires s.path.Some? && s.path.value.1 < |s.items|
    requires a.id == b.id
    requires env.add(Prepared(a, s.path.value.0)).Pass? && env.add(Prepared(b, s.path.value.0)).Pass?
    requires env.remove(Prepared(a, s.path.value.0)).Pass?
    ensures var added := AddCommandOp(AddCommandOp(s, a, env), b, env);
      RemoveCommandOp(added, Prepared(a, s.path.value.0), env).items[s.path.value.1] ==
        Without(s.items[s.path.value.1], a)
  {
    var p := s.path.value.1;
    var a', b' := Prepared(a, s.path.value.0), Prepared(b, s.path.value.0);
    var ia, ib := WithIcon(a', env.icons), WithIcon(b', env.icons);
    var added := AddCommandOp(AddCommandOp(s, a, env), b, env);
    assert added.items[p] == s.items[p] + [ia] + [ib];
    WithoutAppend(s.items[p] + [ia], [ib], a');
    WithoutAppend(s.items[p], [ia], a');
    assert Without([ia], a') == [] && Without([ib], a') == [];
    assert Without(s.items[p], a') == Without(s.items[p], a) by {
      WithoutSameId(s.items[p], a', a);
    }
  }

  /** Filtering depends on the id alone. */
  lemma {:induction false} WithoutSameId(items: seq<Item>, a: CommandInfo, b: CommandInfo)
    requires a.id == b.id
    ensures Without(items, a) == Without(items, b)
    decreases |items|
  {
    if |items| > 0 {
      WithoutSameId(items[1..], a, b);
    }
  }

  /** Of two rows with the edited command's id, only the first is ever
      rewritten by `edit_command`: the later one is left as it was. */
  lemma EditSharedIdFirst(s: AppState, cmd: CommandInfo, env: Env, i: nat, j: nat)
    requires s.path.Some? && s.path.value.1 < |s.items| && env.add(cmd).Pass?
    requires i < j < |s.items[s.path.value.1]|
    requires s.items[s.path.value.1][i].0.id == cmd.id == s.items[s.path.value.1][j].0.id
    ensures EditCommandOp(s, cmd, env).items[s.path.value.1][j] == s.items[s.path.value.1][j]
  {
  }

  /** The text shown for a registry failure (`io::Error`'s message for a missing key). */
  function Describe(e: Context.ContextError): string
  {
    match e
    case Invalid => "Command_info arguments are invalid, one or more required arguments are empty"
    case Store(_) => "The system cannot find the file specified. (os error 2)"
  }

  /** `c` is `orig` read back through `sanitize_command`: title and icon
      sanitized, the rest kept. */
  predicate SanitizedFrom(c: CommandInfo, orig: CommandInfo, home: Option<string>)
  {
    c.title == SanitizePath(orig.title, home) && c.icon == SanitizePath(orig.icon, home) &&
    c.command == orig.command && c.folder == orig.folder && c.path == orig.path
  }

  /** Sanitizing every listed command in listing order, the `i`th under id supply `next + i`. */
  function SanitizeAll(cmds: seq<CommandInfo>, home: Option<string>, next: IdSupply)
    : (r: (seq<CommandInfo>, IdSupply))
    ensures |r.0| == |cmds| && r.1 == next + |cmds|
    ensures forall i :: 0 <= i < |cmds| ==> r.0[i] == SanitizeCommand(cmds[i], home, next + i).0
  {
    var supply: IdSupply := next + |cmds|;
    (seq(|cmds|, i requires 0 <= i < |cmds| => SanitizeCommand(cmds[i], home, next + i).0), supply)
  }

  /** Every listed command comes back sanitized, and the ids are fresh: at or
      above `next`, below the returned supply and increasing in listing order. */
  lemma SanitizeAllFresh(cmds: seq<CommandInfo>, home: Option<string>, next: IdSupply)
    ensures var r := SanitizeAll(cmds, home, next);
      && (forall i :: 0 <= i < |cmds| ==> SanitizedFrom(r.0[i], cmds[i], home))
      && (forall i :: 0 <= i < |cmds| ==> next <= r.0[i].id < r.1)
      && (forall i, j :: 0 <= i < j < |cmds| ==> r.0[i].id < r.0[j].id)
  {
    var r := SanitizeAll(cmds, home, next);
    forall i | 0 <= i < |cmds|
      ensures SanitizedFrom(r.0[i], cmds[i], home) && next + i <= r.0[i].id < next + i + 1
    {
      var c := SanitizeCommand(cmds[i], home, next + i);
      assert r.0[i] == c.0;
    }
  }

  /** `load_item`: lists the key's path in the registry, sanitizes each listed
      command and loads its icon, keeping the listing's order. Every row shares
      the key's path cell. `names` is the registry's enumeration of the key's
      subkeys, `home` the home directory. */
  function LoadItem(root: Registry.Node, key: Key, names: seq<string>, home: Option<string>,
                    icons: string -> Image, next: IdSupply)
    : (r: Result<(seq<Item>, IdSupply), string>)
    reads key.path
    requires Registry.EnumeratesAt(root, key.path.segments, names)
    ensures r.Err? <==> Registry.Resolve(root, key.path.segments).Err?
    ensures r.Err? ==> r.error == LoadErrorPrefix + Describe(Context.Store(Registry.Resolve(root, key.path.segments).error))
    ensures r.Ok? ==>
      var (listed, next') := Context.GetCurrentContextWindow(root, key.path, names, next).value;
      && |r.value.0| == |listed| && r.value.1 == next' + |listed|
      && forall i :: 0 <= i < |listed| ==>
           && SanitizedFrom(r.value.0[i].0, listed[i], home)
           && next' <= r.value.0[i].0.id < r.value.1
           && r.value.0[i].0.path == key.path
           && r.value.0[i].1 == icons(r.value.0[i].0.icon)
  {
    match Context.GetCurrentContextWindow(root, ClonePath(key), names, next)
    case Err(e) => Err(LoadErrorPrefix + Describe(e))
    case Ok((listed, next')) =>
      SanitizeAllFresh(listed, home, next');
      var (clean, last) := SanitizeAll(listed, home, next');
      Ok((seq(|clean|, i requires 0 <= i < |clean| => WithIcon(clean[i], icons)), last))
  }
}

=== FILE: backup.dfy ===
/** `edit_context_lib/backup.rs`: collecting registry subtrees into one
    `.reg` export and naming the file it is written to. The exporter itself
    (`RegWriter`) is opaque here: it is modelled as the list of sections it was
    handed, in order. */
module Backup {
  import opened Base
  import opened Strings
  import opened Registry

  /** The predefined registry roots. */
  datatype Hkey = ClassesRoot | CurrentUser | LocalMachine | Users | CurrentConfig

  /** `hkey_to_string`: only `HKEY_CLASSES_ROOT` has a name; every other root maps to "". */
  function HkeyToString(h: Hkey): (r: string)
    ensures r != "" <==> h == ClassesRoot
    ensures h == ClassesRoot ==> r == "HKEY_CLASSES_ROOT"
  {
    match h
    case ClassesRoot => "HKEY_CLASSES_ROOT"
    case _ => ""
  }

  /** The `.reg` section name of a path: root name, then the segments, all separated by '\'. */
  function SectionName(h: Hkey, segs: seq<string>): string
  {
    HkeyToString(h) + "\\" + Join(segs, "\\")
  }

  /** A section name is the root's name, a '\\', then the segments joined by '\\'. */
  lemma SectionNameParts(h: Hkey, segs: seq<string>)
    ensures var r := SectionName(h, segs);
      && |r| > |HkeyToString(h)| && r[..|HkeyToString(h)|] == HkeyToString(h)
      && r[|HkeyToString(h)|] == '\\' && r[|HkeyToString(h)| + 1..] == Join(segs, "\\")
  {
  }

  /** A section name splits back into the root name and the path segments,
      provided no segment holds a '\' itself. */
  lemma SectionNameSplits(h: Hkey, segs: seq<string>)
    requires |segs| > 0
    requires forall i :: 0 <= i < |segs| ==> '\\' !in segs[i]
    ensures Split(SectionName(h, segs), '\\') == [HkeyToString(h)] + segs
  {
    var parts := [HkeyToString(h)] + segs;
    assert parts[1..] == segs;
    assert Join(parts, "\\") == SectionName(h, segs);
    SplitJoin(parts, '\\');
  }

  /** One subtree handed to the exporter: its section name and its key. */
  datatype Section = Section(name: string, key: Node)

  /** Why `backup_paths` failed: a path did not open, the exporter could not
      read a subtree (`with_all_subkeys`, with its message), or the file could
      not be written. */
  datatype BackupError = Unresolved(cause: Registry.Error) | ExportFailed(message: string) | WriteFailed

  /** What the exporter's `with_all_subkeys` reports for one section: `Pass`,
      or `Fail` with its message. */
  type Exporter = (string, Node) -> Outcome<string>

  /** `p` opens and the exporter takes its subtree. */
  predicate Exported(root: Node, h: Hkey, exporter: Exporter, p: seq<string>)
  {
    Resolve(root, p).Ok? && exporter(SectionName(h, p), Resolve(root, p).value).Pass?
  }

  /** The fold of `backup_paths` over `paths`, in order. Each step opens its
      path first, so a path that fails replaces any earlier error; a path that
      opens carries an earlier error forward, and otherwise its subtree goes to
      the exporter, which may fail. */
  function Collect(root: Node, h: Hkey, exporter: Exporter, paths: seq<seq<string>>)
    : Result<seq<Section>, BackupError>
    decreases |paths|
  {
    if |paths| == 0 then Ok([])
    else
      var n := |paths| - 1;
      var init := paths[..n];
      match Resolve(root, paths[n])
      case Err(e) => Err(Unresolved(e))
      case Ok(key) =>
        match Collect(root, h, exporter, init)
        case Err(e) => Err(e)
        case Ok(sections) =>
          var name := SectionName(h, paths[n]);
          match exporter(name, key)
          case Fail(message) => Err(ExportFailed(message))
          case Pass => Ok(sections + [Section(name, key)])
  }

  /** The fold succeeds exactly when every path opens and is exported; the
      exporter then holds one section per path, in input order. */
  lemma {:induction false} CollectOk(root: Node, h: Hkey, exporter: Exporter, paths: seq<seq<string>>)
    ensures var r := Collect(root, h, exporter, paths);
      && (r.Ok? <==> forall i :: 0 <= i < |paths| ==> Exported(root, h, exporter, paths[i]))
      && (r.Ok? ==> |r.value| == |paths| && forall i :: 0 <= i < |paths| ==>
            r.value[i] == Section(SectionName(h, paths[i]), Resolve(root, paths[i]).value))
    decreases |paths|
  {
    if |paths| > 0 {
      var n := |paths| - 1;
      var init := paths[..n];
      assert forall i :: 0 <= i < n ==> init[i] == paths[i];
      CollectOk(root, h, exporter, init);
      var r := Collect(root, h, exporter, paths);
      if r.Ok? {
        var sections := Collect(root, h, exporter, init).value;
        var name := SectionName(h, paths[n]);
        assert r.value == sections + [Section(name, Resolve(root, paths[n]).value)];
        forall i | 0 <= i < |paths|
          ensures Exported(root, h, exporter, paths[i])
          ensures r.value[i] == Section(SectionName(h, paths[i]), Resolve(root, paths[i]).value)
        {
          if i < n {
            assert init[i] == paths[i] && r.value[i] == sections[i];
          }
        }
      } else if Resolve(root, paths[n]).Ok? && Collect(root, h, exporter, init).Err? {
        var i :| 0 <= i < n && !Exported(root, h, exporter, init[i]);
        assert !Exported(root, h, exporter, paths[i]);
      } else {
        assert !Exported(root, h, exporter, paths[n]);
      }
    }
  }

  /** When some path fails to open, the fold fails with the error of the last
      path that fails to open: a later export failure never surfaces. */
  lemma {:induction false} CollectLastError(root: Node, h: Hkey, exporter: Exporter, paths: seq<seq<string>>)
    requires exists i :: 0 <= i < |paths| && Resolve(root, paths[i]).Err?
    ensures var r := Collect(root, h, exporter, paths);
      && r.Err? && r.error.Unresolved?
      && exists i :: 0 <= i < |paths| && Resolve(root, paths[i]) == Err(r.error.cause) &&
                     (forall j :: i < j < |paths| ==> Resolve(root, paths[j]).Ok?)
    decreases |paths|
  {
    var n := |paths| - 1;
    var init := paths[..n];
    assert forall i :: 0 <= i < n ==> init[i] == paths[i];
    if Resolve(root, paths[n]).Err? {
      assert Collect(root, h, exporter, paths) == Err(Unresolved(Resolve(root, paths[n]).error));
    } else {
      var k :| 0 <= k < |paths| && Resolve(root, paths[k]).Err?;
      assert init[k] == paths[k];
      CollectLastError(root, h, exporter, init);
      var e := Collect(root, h, exporter, init).error;
      assert Collect(root, h, exporter, paths) == Err(e);
      var i :| 0 <= i < n && Resolve(root, init[i]) == Err(e.cause) &&
               (forall j :: i < j < n ==> Resolve(root, init[j]).Ok?);
      forall j | i < j < |paths|
        ensures Resolve(root, paths[j]).Ok?
      {
        if j < n {
          assert init[j] == paths[j];
        }
      }
      assert Resolve(root, paths[i]) == Err(e.cause);
    }
  }

  /** When every path opens, the fold fails only with the message of the first
      section the exporter refuses. */
  lemma {:induction false} CollectExportError(root: Node, h: Hkey, exporter: Exporter, paths: seq<seq<string>>)
    requires forall i :: 0 <= i < |paths| ==> Resolve(root, paths[i]).Ok?
    ensures var r := Collect(root, h, exporter, paths);
      r.Err? ==> && r.error.ExportFailed?
                 && exists i :: 0 <= i < |paths| &&
                      exporter(SectionName(h, paths[i]), Resolve(root, paths[i]).value) == Fail(r.error.message) &&
                      (forall j :: 0 <= j < i ==> Exported(root, h, exporter, paths[j]))
    decreases |paths|
  {
    if |paths| > 0 {
      var n := |paths| - 1;
      var init := paths[..n];
      assert forall i :: 0 <= i < n ==> init[i] == paths[i];
      var key := Resolve(root, paths[n]).value;
      match Collect(root, h, exporter, init)
      case Err(e) =>
        CollectExportError(root, h, exporter, init);
        assert Collect(root, h, exporter, paths) == Err(e);
        var i :| 0 <= i < n && exporter(SectionName(h, init[i]), Resolve(root, init[i]).value) == Fail(e.message) &&
                 (forall j :: 0 <= j < i ==> Exported(root, h, exporter, init[j]));
        assert init[i] == paths[i];
        forall j | 0 <= j < i
          ensures Exported(root, h, exporter, paths[j])
        {
          assert init[j] == paths[j];
        }
      case Ok(_) =>
        CollectOk(root, h, exporter, init);
        forall j | 0 <= j < n
          ensures Exported(root, h, exporter, paths[j])
        {
          assert init[j] == paths[j];
        }
    }
  }

  /** A local date and time. */
  datatype DateTime = DateTime(year: nat, month: nat, day: nat, hour: nat, minute: nat, second: nat)

  /** The range chrono prints with `%Y-%m-%d-%H-%M-%S` (four-digit years; a leap second may read 60). */
  predicate ValidDateTime(t: DateTime)
  {
    t.year < 10000 && 1 <= t.month <= 12 && 1 <= t.day <= 31 &&
    t.hour < 24 && t.minute < 60 && t.second <= 60
  }

  function Pow10(w: nat): nat
  {
    if w == 0 then 1 else 10 * Pow10(w - 1)
  }

  predicate IsDigit(c: char)
  {
    '0' <= c <= '9'
  }

  /** `n` in decimal, zero-padded to `w` digits. */
  function Digits(n: nat, w: nat): (r: string)
    requires n < Pow10(w)
    ensures |r| == w
    ensures forall i :: 0 <= i < |r| ==> IsDigit(r[i])
  {
    if w == 0 then ""
    else Digits(n / 10, w - 1) + [(('0' as int) + n % 10) as char]
  }

  /** The number a string of decimal digits spells. */
  function ParseDigits(s: string): nat
    requires forall i :: 0 <= i < |s| ==> IsDigit(s[i])
  {
    if |s| == 0 then 0
    else
      assert IsDigit(s[|s| - 1]);
      10 * ParseDigits(s[..|s| - 1]) + (s[|s| - 1] as int - '0' as int)
  }

  /** Padding loses nothing: the digits spell the number back. */
  lemma {:induction false} DigitsParse(n: nat, w: nat)
    requires n < Pow10(w)
    ensures ParseDigits(Digits(n, w)) == n
  {
    if w > 0 {
      DigitsParse(n / 10, w - 1);
      assert Digits(n, w)[..w - 1] == Digits(n / 10, w - 1);
    }
  }

  /** `current_date_time`'s format, `YYYY-MM-DD-HH-MM-SS`. */
  function Timestamp(t: DateTime): (r: string)
    requires ValidDateTime(t)
    ensures |r| == 19
    ensures forall i :: i in {4, 7, 10, 13, 16} ==> r[i] == '-'
    ensures forall i :: 0 <= i < 19 && i !in {4, 7, 10, 13, 16} ==> IsDigit(r[i])
  {
    Digits(t.year, 4) + "-" + Digits(t.month, 2) + "-" + Digits(t.day, 2) + "-" +
    Digits(t.hour, 2) + "-" + Digits(t.minute, 2) + "-" + Digits(t.second, 2)
  }

  /** Each field of the timestamp reads back from its fixed position. */
  lemma TimestampFields(t: DateTime)
    requires ValidDateTime(t)
    ensures var s := Timestamp(t);
      && ParseDigits(s[0..4]) == t.year && ParseDigits(s[5..7]) == t.month
      && ParseDigits(s[8..10]) == t.day && ParseDigits(s[11..13]) == t.hour
      && ParseDigits(s[14..16]) == t.minute && ParseDigits(s[17..19]) == t.second
  {
    var s := Timestamp(t);
    assert s[0..4] == Digits(t.year, 4);
    assert s[5..7] == Digits(t.month, 2);
    assert s[8..10] == Digits(t.day, 2);
    assert s[11..13] == Digits(t.hour, 2);
    assert s[14..16] == Digits(t.minute, 2);
    assert s[17..19] == Digits(t.second, 2);
    DigitsParse(t.year, 4);
    DigitsParse(t.month, 2);
    DigitsParse(t.day, 2);
    DigitsParse(t.hour, 2);
    DigitsParse(t.minute, 2);
    DigitsParse(t.second, 2);
  }

  /** The name of the backup file. */
  function FileName(t: DateTime): (r: string)
    requires ValidDateTime(t)
    ensures |r| == 30 && r[..7] == "backup-" && r[7..26] == Timestamp(t) && r[26..] == ".reg"
  {
    "backup-" + Timestamp(t) + ".reg"
  }

  /** `PathBuf::join` of a relative file name on Windows: a '\' is inserted
      unless the directory is empty or already ends in a separator. */
  function JoinPath(dir: string, name: string): (r: string)
    ensures |dir| + |name| <= |r| <= |dir| + 1 + |name|
    ensures r[..|dir|] == dir && r[|r| - |name|..] == name
  {
    if dir == [] || dir[|dir| - 1] in {'\\', '/'} then dir + name else dir + "\\" + name
  }

  /** A written backup: where it went and the sections it holds. */
  datatype BackupFile = BackupFile(path: string, sections: seq<Section>)

  /** `backup_paths`. `exporter` is the exporter's outcome per section,
      `resourceDir` the resource directory (`None` when it cannot be found: the
      error is logged and the call still succeeds without writing), `now` the
      clock reading and `written` whether `write_to` succeeded. `Ok(Some(f))`
      means file `f` was written, `Ok(None)` nothing. */
  function BackupPaths(root: Node, h: Hkey, exporter: Exporter, paths: seq<seq<string>>,
                       resourceDir: Option<string>, now: DateTime, written: bool)
    : (r: Result<Option<BackupFile>, BackupError>)
    requires ValidDateTime(now)
    ensures r.Err? && r.error.Unresolved? <==> exists i :: 0 <= i < |paths| && Resolve(root, paths[i]).Err?
    ensures r.Err? && !r.error.WriteFailed? ==> Collect(root, h, exporter, paths) == Err(r.error)
    ensures r.Err? && r.error.Unresolved? ==>
      exists i :: 0 <= i < |paths| && Resolve(root, paths[i]) == Err(r.error.cause) &&
                  (forall j :: i < j < |paths| ==> Resolve(root, paths[j]).Ok?)
    ensures r.Err? && r.error.ExportFailed? ==>
      && (forall i :: 0 <= i < |paths| ==> Resolve(root, paths[i]).Ok?)
      && exists i :: 0 <= i < |paths| &&
           exporter(SectionName(h, paths[i]), Resolve(root, paths[i]).value) == Fail(r.error.message) &&
           (forall j :: 0 <= j < i ==> Exported(root, h, exporter, paths[j]))
    ensures resourceDir.None? ==> r.Ok? ==> r.value.None?
    ensures (forall i :: 0 <= i < |paths| ==> Exported(root, h, exporter, paths[i])) && resourceDir.None? ==>
      r == Ok(None)
    ensures (forall i :: 0 <= i < |paths| ==> Exported(root, h, exporter, paths[i])) && resourceDir.Some? ==>
      (written ==> r.Ok? && r.value.Some?) && (!written ==> r == Err(WriteFailed))
    ensures r.Ok? && r.value.Some? ==> Collect(root, h, exporter, paths) == Ok(r.value.value.sections)
    ensures r.Ok? && r.value.Some? ==>
      && resourceDir.Some? && written
      && r.value.value.path == JoinPath(resourceDir.value, FileName(now))
      && |r.value.value.sections| == |paths|
      && forall i :: 0 <= i < |paths| ==>
           r.value.value.sections[i].name == SectionName(h, paths[i]) &&
           Ok(r.value.value.sections[i].key) == Resolve(root, paths[i])
  {
    CollectOk(root, h, exporter, paths);
    if exists i :: 0 <= i < |paths| && Resolve(root, paths[i]).Err? then
      CollectLastError(root, h, exporter, paths);
      Err(Collect(root, h, exporter, paths).error)
    else
    CollectExportError(root, h, exporter, paths);
    match Collect(root, h, exporter, paths)
    case Err(e) => Err(e)
    case Ok(sections) =>
      match resourceDir
      case None => Ok(None)
      case Some(dir) =>
        if written then Ok(Some(BackupFile(JoinPath(dir, FileName(now)), sections)))
        else Err(WriteFailed)
  }
}

=== FILE: base.dfy ===
/** Failure-carrying wrappers shared by every module of the model. */
module Base {

  /** A value that may be absent (Rust's `Option`). */
  datatype Option<+T> = None | Some(value: T)

  /** A value or an error (Rust's `Result`). */
  datatype Result<+T, +E> = Ok(value: T) | Err(error: E)

  /** Success without a value, or an error (Rust's `Result<(), E>`). */
  datatype Outcome<+E> = Pass | Fail(error: E)
}

=== FILE: config.dfy ===
/** `resources/config.rs`: assembling the application configuration from the
    parsed INI file, with defaults for anything missing or unreadable. */
module Config {
  import opened Base
  import opened Types

  /** The entries of one INI section, in file order. */
  type Props = seq<(string, string)>

  /** A parsed INI file: section name to its entries. */
  type Ini = map<string, Props>

  /** A configuration key: its name in the file and its default (`ConfKey<T>`). */
  datatype ConfKey<T> = ConfKey(name: string, default: T)

  const AppTitle := "Edit Context Window"
  const WidthKey := ConfKey("APP_WIDTH", 400.0)
  const HeightKey := ConfKey("APP_HEIGHT", 600.0)
  const BackupKey := ConfKey("AUTO_BACKUP", true)
  const IconKey := ConfKey("ICON_SIZE", 25.0)

  /** `Properties::get`: the value of the first entry named `name`. */
  function Get(props: Props, name: string): (r: Option<string>)
    ensures r.None? <==> forall i :: 0 <= i < |props| ==> props[i].0 != name
    ensures r.Some? ==> exists i :: 0 <= i < |props| && props[i] == (name, r.value) &&
                                    (forall j :: 0 <= j < i ==> props[j].0 != name)
    decreases |props|
  {
    if |props| == 0 then None
    else if props[0].0 == name then Some(props[0].1)
    else
      var r := Get(props[1..], name);
      assert forall i :: 0 <= i < |props| - 1 ==> props[1..][i] == props[i + 1];
      r
  }

  /** `get_parse_or`: the parsed value under the key, or the key's default when
      the key is absent or its value does not parse. `parse` is `str::parse::<T>`. */
  function GetParseOr<T>(props: Props, key: ConfKey<T>, parse: string -> Option<T>): (r: T)
    ensures Get(props, key.name).None? ==> r == key.default
    ensures Get(props, key.name).Some? && parse(Get(props, key.name).value).None? ==> r == key.default
    ensures Get(props, key.name).Some? && parse(Get(props, key.name).value).Some? ==>
      r == parse(Get(props, key.name).value).value
  {
    match Get(props, key.name)
    case None => key.default
    case Some(v) =>
      match parse(v)
      case None => key.default
      case Some(x) => x
  }

  /** `bool::from_str`: exactly "true" or "false". */
  function ParseBool(s: string): (r: Option<bool>)
    ensures r == Some(true) <==> s == "true"
    ensures r == Some(false) <==> s == "false"
  {
    if s == "true" then Some(true) else if s == "false" then Some(false) else None
  }

  /** A configured key before its path cell is allocated: name, segments, properties. */
  datatype KeyConfig = KeyConfig(name: string, segments: seq<string>, props: KeyProps)

  /** `Key::new(name).with_path(path)` for each `RegKeys` entry, in section order. */
  function KeysOf(entries: Props): (r: seq<KeyConfig>)
    ensures |r| == |entries|
    ensures forall i :: 0 <= i < |entries| ==>
      r[i].name == entries[i].0 && r[i].props == NoProps &&
      r[i].segments == PathSegments(entries[i].1) &&
      Strings.Join(r[i].segments, "/") == entries[i].1 &&
      forall k :: 0 <= k < |r[i].segments| ==> '/' !in r[i].segments[k]
  {
    seq(|entries|, i requires 0 <= i < |entries| => KeyConfig(entries[i].0, PathSegments(entries[i].1), NoProps))
  }

  /** The properties the first `RegProps` entry naming `name` gives, if any. */
  function PropsFor(props: Props, name: string): (r: Option<KeyProps>)
    ensures r.None? <==> forall i :: 0 <= i < |props| ==> props[i].0 != name
    ensures r.Some? ==> r.value == PropsFrom(Get(props, name).value)
  {
    match Get(props, name)
    case None => None
    case Some(v) => Some(PropsFrom(v))
  }

  /** The `RegProps` merge: every key keeps its place; a key named in `props`
      takes the properties of the first such entry, any other key is unchanged. */
  function MergeProps(keys: seq<KeyConfig>, props: Props): (r: seq<KeyConfig>)
    ensures |r| == |keys|
    ensures forall i :: 0 <= i < |keys| ==>
      r[i].name == keys[i].name && r[i].segments == keys[i].segments &&
      r[i].props == (match PropsFor(props, keys[i].name)
                     case None => keys[i].props
                     case Some(p) => p)
  {
    seq(|keys|, i requires 0 <= i < |keys| =>
      match PropsFor(props, keys[i].name)
      case None => keys[i]
      case Some(p) => keys[i].(props := p))
  }

  /** `AppConfig`, with `f32` values as reals and keys not yet allocated. */
  datatype AppConfig = AppConfig(
    title: string,
    width: real,
    height: real,
    autoBackup: bool,
    iconSize: real,
    keys: seq<KeyConfig>)

  /** `From<Ini> for AppConfig`. `parseF32` is `str::parse::<f32>`. */
  function FromIni(conf: Ini, parseF32: string -> Option<real>): (r: AppConfig)
    ensures r.title == AppTitle
    ensures "Options" !in conf ==>
      r.width == 400.0 && r.height == 600.0 && r.autoBackup && r.iconSize == 25.0
    ensures "Options" in conf ==>
      && r.width == GetParseOr(conf["Options"], WidthKey, parseF32)
      && r.height == GetParseOr(conf["Options"], HeightKey, parseF32)
      && r.autoBackup == GetParseOr(conf["Options"], BackupKey, ParseBool)
      && r.iconSize == GetParseOr(conf["Options"], IconKey, parseF32)
    ensures "RegKeys" !in conf ==> r.keys == []
    ensures "RegKeys" in conf ==> |r.keys| == |conf["RegKeys"]|
    ensures "RegKeys" in conf ==> forall i :: 0 <= i < |r.keys| ==>
      r.keys[i].name == conf["RegKeys"][i].0 &&
      r.keys[i].segments == PathSegments(conf["RegKeys"][i].1)
    ensures "RegProps" !in conf ==> forall i :: 0 <= i < |r.keys| ==> r.keys[i].props == NoProps
    ensures "RegProps" in conf ==> forall i :: 0 <= i < |r.keys| ==>
      r.keys[i].props == (match PropsFor(conf["RegProps"], r.keys[i].name)
                          case None => NoProps
                          case Some(p) => p)
  {
    var (width, height, autoBackup, iconSize) :=
      if "Options" in conf then
        var props := conf["Options"];
        (GetParseOr(props, WidthKey, parseF32), GetParseOr(props, HeightKey, parseF32),
         GetParseOr(props, BackupKey, ParseBool), GetParseOr(props, IconKey, parseF32))
      else (WidthKey.default, HeightKey.default, BackupKey.default, IconKey.default);
    var keys := if "RegKeys" in conf then KeysOf(conf["RegKeys"]) else [];
    var keys := if "RegProps" in conf then MergeProps(keys, conf["RegProps"]) else keys;
    AppConfig(AppTitle, width, height, autoBackup, iconSize, keys)
  }

  /** Allocates a path cell for each configured key, as `with_path` does. */
  method BuildKeys(configured: seq<KeyConfig>) returns (keys: seq<Key>)
    ensures |keys| == |configured|
    ensures forall i :: 0 <= i < |configured| ==>
      keys[i].name == configured[i].name && keys[i].props == configured[i].props &&
      keys[i].path.segments == configured[i].segments && fresh(keys[i].path)
    ensures forall i, j :: 0 <= i < j < |keys| ==> keys[i].path != keys[j].path
  {
    keys := [];
    var i := 0;
    while i < |configured|
      invariant 0 <= i <= |configured| && |keys| == i
      invariant forall j :: 0 <= j < i ==>
        keys[j].name == configured[j].name && keys[j].props == configured[j].props &&
        keys[j].path.segments == configured[j].segments && fresh(keys[j].path)
      invariant forall j, k :: 0 <= j < k < i ==> keys[j].path != keys[k].path
    {
      var p := new KeyPath(configured[i].segments);
      keys := keys + [Key(configured[i].name, p, configured[i].props)];
      i := i + 1;
    }
  }
}

=== FILE: context.dfy ===
/** `edit_context_lib/addtocontext.rs`: adding, listing and removing
    context-menu commands under a registry path. */
module Context {
  import opened Base
  import opened Types
  import opened Registry

  /** The shell containers the application edits. */
  const DirectorySubkey: seq<string> := ["Directory", "shell"]
  const BackgroundSubkey: seq<string> := ["Directory", "Background", "shell"]
  const FileSubkey: seq<string> := ["*", "shell"]

  /** `convert_subkey`: a new path cell holding the given segments. */
  method ConvertSubkey(subkey: seq<string>) returns (p: KeyPath)
    ensures fresh(p) && p.segments == subkey
  {
    p := new KeyPath(subkey);
  }

  /** Why an add, list or remove failed. */
  datatype ContextError = Invalid | Store(cause: Registry.Error)

  /** The required fields of a command: title, folder and path are non-empty. */
  predicate Valid(cmd: CommandInfo)
    reads cmd.path
  {
    cmd.title != [] && cmd.folder != [] && cmd.path.segments != []
  }

  /** `validate_command_info`. */
  function Validate(cmd: CommandInfo): (r: Outcome<ContextError>)
    reads cmd.path
    ensures r.Fail? <==> !Valid(cmd)
    ensures r.Fail? ==> r.error == Invalid
  {
    if Valid(cmd) then Pass else Fail(Invalid)
  }

  /** The subkey the name of the command's key value is written under. */
  const CommandKey := "command"

  /** The folder key after `add_to_context_window` has written into `entry`
      (the folder as it was, or a new empty key). An existing `command` subkey
      is reopened: only its default value changes. */
  function WriteEntry(entry: Node, cmd: CommandInfo): (r: Node)
    ensures r.name == entry.name
    ensures GetValue(r, "") == Some(cmd.title) && GetValue(r, "icon") == Some(cmd.icon)
    ensures forall name :: Fold(name) != "" && Fold(name) != "icon" ==> GetValue(r, name) == GetValue(entry, name)
    ensures cmd.command == [] ==> r.children == entry.children
    ensures cmd.command != [] ==>
      && r.children.Keys == entry.children.Keys + {CommandKey}
      && GetValue(r.children[CommandKey], "") == Some(cmd.command)
      && forall other :: other in entry.children && other != CommandKey ==> r.children[other] == entry.children[other]
    ensures cmd.command != [] ==>
      var written, reopened := r.children[CommandKey], CreateSubkey(entry, CommandKey);
      && written.name == reopened.name && written.children == reopened.children
      && forall name :: Fold(name) != "" ==> GetValue(written, name) == GetValue(reopened, name)
  {
    FixedNamesFold();
    var e := SetValue(SetValue(entry, "", cmd.title), "Icon", cmd.icon);
    if cmd.command == [] then e
    else SetChild(e, CommandKey, SetValue(CreateSubkey(e, CommandKey), "", cmd.command))
  }

  /** `add_to_context_window`: validates, opens the path (never creating it),
      creates or opens the folder and writes title, icon and, when non-empty,
      the command. Returns the new registry; an error leaves it as it was. */
  function AddToContext(root: Node, cmd: CommandInfo): (r: Result<Node, ContextError>)
    reads cmd.path
    ensures r.Err? <==> !Valid(cmd) || Resolve(root, cmd.path.segments).Err?
    ensures r.Err? && !Valid(cmd) ==> r.error == Invalid
    ensures r.Err? && Valid(cmd) ==> r.error == Store(Resolve(root, cmd.path.segments).error)
  {
    if Validate(cmd).Fail? then Err(Invalid)
    else match Resolve(root, cmd.path.segments)
      case Err(e) => Err(Store(e))
      case Ok(parent) =>
        var entry := WriteEntry(CreateSubkey(parent, cmd.folder), cmd);
        Ok(Put(root, cmd.path.segments, SetChild(parent, cmd.folder, entry)))
  }

  /** The icon value is written as "Icon" and read back as "icon": one name;
      "command" is already in its stored form. */
  lemma FixedNamesFold()
    ensures Fold("Icon") == Fold("icon") == "icon" && Fold("") == ""
    ensures Fold(CommandKey) == CommandKey
  {
    assert Fold("Icon")[0] == 'i';
    assert Fold(CommandKey)[0] == 'c';
  }

  /** What one add does: the parent keeps its values and its other subkeys;
      the folder gets title and icon, keeps its other values, and gets the
      command key only when the command is non-empty; a `command` key already
      there keeps its spelling, its subkeys and its other values. */
  lemma AddEffect(root: Node, cmd: CommandInfo)
    requires AddToContext(root, cmd).Ok?
    ensures Resolve(AddToContext(root, cmd).value, cmd.path.segments).Ok?
    ensures
      var parent := Resolve(root, cmd.path.segments).value;
      var parent' := Resolve(AddToContext(root, cmd).value, cmd.path.segments).value;
      var f := Fold(cmd.folder);
      var entry := CreateSubkey(parent, cmd.folder);
      && parent'.name == parent.name && parent'.values == parent.values
      && parent'.children.Keys == parent.children.Keys + {f}
      && (forall other :: other in parent.children && other != f ==>
            parent'.children[other] == parent.children[other])
      && parent'.children[f].name == entry.name
      && GetValue(parent'.children[f], "") == Some(cmd.title)
      && GetValue(parent'.children[f], "icon") == Some(cmd.icon)
      && (forall name :: Fold(name) != "" && Fold(name) != "icon" ==>
            GetValue(parent'.children[f], name) == GetValue(entry, name))
      && (cmd.command == [] ==> parent'.children[f].children == entry.children)
      && (cmd.command != [] ==>
            && parent'.children[f].children.Keys == entry.children.Keys + {CommandKey}
            && GetValue(parent'.children[f].children[CommandKey], "") == Some(cmd.command)
            && (forall other :: other in entry.children && other != CommandKey ==>
                  parent'.children[f].children[other] == entry.children[other])
            && var written, reopened := parent'.children[f].children[CommandKey], CreateSubkey(entry, CommandKey);
            && written.name == reopened.name && written.children == reopened.children
            && forall name :: Fold(name) != "" ==> GetValue(written, name) == GetValue(reopened, name))
  {
    FixedNamesFold();
    var parent := Resolve(root, cmd.path.segments).value;
    var entry := WriteEntry(CreateSubkey(parent, cmd.folder), cmd);
    ResolvePut(root, cmd.path.segments, SetChild(parent, cmd.folder, entry));
  }

  /** An add changes nothing outside the addressed path, and on the way down to
      the parent every key, the root included, keeps its name, values and subkeys. */
  lemma AddFrame(root: Node, cmd: CommandInfo, other: seq<string>)
    requires AddToContext(root, cmd).Ok?
    ensures Diverge(cmd.path.segments, other) ==>
      Resolve(AddToContext(root, cmd).value, other) == Resolve(root, other)
    ensures Above(other, cmd.path.segments) ==>
      && Resolve(root, other).Ok? && Resolve(AddToContext(root, cmd).value, other).Ok?
      && var before, after := Resolve(root, other).value, Resolve(AddToContext(root, cmd).value, other).value;
      && after.name == before.name && after.values == before.values
      && after.children.Keys == before.children.Keys
  {
    var parent := Resolve(root, cmd.path.segments).value;
    var entry := WriteEntry(CreateSubkey(parent, cmd.folder), cmd);
    if Diverge(cmd.path.segments, other) {
      PutFrame(root, cmd.path.segments, SetChild(parent, cmd.folder, entry), other);
    }
    if Above(other, cmd.path.segments) {
      PutAbove(root, cmd.path.segments, SetChild(parent, cmd.folder, entry), other);
    }
  }

  /** Writing an entry a second time changes nothing. */
  lemma WriteEntryTwice(entry: Node, cmd: CommandInfo)
    ensures WriteEntry(WriteEntry(entry, cmd), cmd) == WriteEntry(entry, cmd)
  {
    FixedNamesFold();
    var e := SetValue(SetValue(entry, "", cmd.title), "Icon", cmd.icon);
    var e1 := WriteEntry(entry, cmd);
    var e2 := SetValue(SetValue(e1, "", cmd.title), "Icon", cmd.icon);
    assert e2.values == e.values;
    if cmd.command != [] {
      var c := SetValue(CreateSubkey(e, CommandKey), "", cmd.command);
      assert CreateSubkey(e2, CommandKey) == c;
      assert SetValue(c, "", cmd.command).values == c.values;
    }
  }

  /** `add_to_context_window` is idempotent: a retried add leaves the registry
      exactly as the first one did. */
  lemma AddIdempotent(root: Node, cmd: CommandInfo)
    requires AddToContext(root, cmd).Ok?
    ensures AddToContext(AddToContext(root, cmd).value, cmd) == AddToContext(root, cmd)
  {
    var segs := cmd.path.segments;
    var parent := Resolve(root, segs).value;
    var entry := WriteEntry(CreateSubkey(parent, cmd.folder), cmd);
    var parent1 := SetChild(parent, cmd.folder, entry);
    var root1 := Put(root, segs, parent1);
    ResolvePut(root, segs, parent1);
    WriteEntryTwice(CreateSubkey(parent, cmd.folder), cmd);
    assert CreateSubkey(parent1, cmd.folder) == entry;
    assert SetChild(parent1, cmd.folder, WriteEntry(entry, cmd)) == parent1;
    PutResolved(root1, segs);
  }

  /** Title, icon and command read from one listed key. */
  datatype Entry = Entry(title: string, icon: string, command: string)

  /** The reads the listing makes for subkey `name`: its default value, its
      "icon" value and the default value of its "command" subkey. Any one
      missing makes the subkey unreadable. */
  function ReadEntry(parent: Node, name: string): (r: Option<Entry>)
    ensures r.Some? ==> OpenSubkey(parent, name).Ok?
    ensures r.Some? ==>
      var key := OpenSubkey(parent, name).value;
      && GetValue(key, "") == Some(r.value.title) && GetValue(key, "icon") == Some(r.value.icon)
      && CommandKey in key.children && GetValue(key.children[CommandKey], "") == Some(r.value.command)
    ensures OpenSubkey(parent, name).Ok? ==>
      var key := OpenSubkey(parent, name).value;
      (GetValue(key, "").Some? && GetValue(key, "icon").Some? &&
       CommandKey in key.children && GetValue(key.children[CommandKey], "").Some?) ==> r.Some?
  {
    FixedNamesFold();
    match OpenSubkey(parent, name)
    case Err(_) => None
    case Ok(key) =>
      match (GetValue(key, ""), GetValue(key, "icon"), OpenSubkey(key, CommandKey))
      case (Some(title), Some(icon), Ok(ck)) =>
        (match GetValue(ck, "")
         case Some(command) => Some(Entry(title, icon, command))
         case None => None)
      case _ => None
  }

  /** What a write stores, a read gives back: a folder written with a non-empty
      command reads as its title, icon and command under any spelling. */
  lemma WriteThenRead(parent: Node, folder: string, entry: Node, cmd: CommandInfo, spelling: string)
    requires folder != "" && cmd.command != [] && Fold(spelling) == Fold(folder)
    ensures ReadEntry(SetChild(parent, folder, WriteEntry(entry, cmd)), spelling) ==
            Some(Entry(cmd.title, cmd.icon, cmd.command))
  {
    FixedNamesFold();
    assert spelling != "";
  }

  /** Two spellings of a subkey name that fold alike read the same entry. */
  lemma ReadEntryFolds(parent: Node, a: string, b: string)
    requires Fold(a) == Fold(b)
    ensures ReadEntry(parent, a) == ReadEntry(parent, b)
  {
    OpenSubkeyFolds(parent, a, b);
  }

  /** A listed command carries the entry read from its folder. */
  predicate Lists(parent: Node, c: CommandInfo)
  {
    ReadEntry(parent, c.folder) == Some(Entry(c.title, c.icon, c.command))
  }

  /** The listing loop over the subkey names `names` reported by the registry
      (in its order): a new command for each readable subkey, the rest skipped.
      Ids are drawn from the supply in listing order. */
  function ListEntries(parent: Node, names: seq<string>, path: KeyPath, next: IdSupply)
    : (r: (seq<CommandInfo>, IdSupply))
    decreases |names|
    ensures |r.0| <= |names| && r.1 == next + |r.0|
    ensures forall i :: 0 <= i < |r.0| ==>
      r.0[i].folder in names && r.0[i].path == path && Lists(parent, r.0[i]) && r.0[i].id == next + i
    ensures (forall a, b :: 0 <= a < b < |names| ==> Fold(names[a]) != Fold(names[b])) ==>
      forall i, j :: 0 <= i < j < |r.0| ==> Fold(r.0[i].folder) != Fold(r.0[j].folder)
  {
    if |names| == 0 then ([], next)
    else match ReadEntry(parent, names[0])
      case None => ListEntries(parent, names[1..], path, next)
      case Some(e) =>
        var (c, next') := New(e.title, e.icon, e.command, names[0], path, next);
        var (rest, last) := ListEntries(parent, names[1..], path, next');
        ([c] + rest, last)
  }

  /** Every readable subkey among `names` is listed: only unreadable ones are skipped. */
  lemma {:induction false} ListEntriesComplete(parent: Node, names: seq<string>, path: KeyPath,
                                               next: IdSupply, name: string)
    requires name in names && ReadEntry(parent, name).Some?
    ensures var listed := ListEntries(parent, names, path, next).0;
      exists i :: 0 <= i < |listed| && listed[i].folder == name
    decreases |names|
  {
    var listed := ListEntries(parent, names, path, next).0;
    if names[0] == name {
      var e := ReadEntry(parent, name).value;
      var (c, next') := New(e.title, e.icon, e.command, name, path, next);
      assert listed == [c] + ListEntries(parent, names[1..], path, next').0;
      assert ListEntries(parent, names, path, next).0[0].folder == name;
    } else {
      var next' := if ReadEntry(parent, names[0]).Some? then next + 1 else next;
      ListEntriesComplete(parent, names[1..], path, next', name);
      var rest := ListEntries(parent, names[1..], path, next').0;
      var k :| 0 <= k < |rest| && rest[k].folder == name;
      if ReadEntry(parent, names[0]).Some? {
        var e := ReadEntry(parent, names[0]).value;
        var (c, _) := New(e.title, e.icon, e.command, names[0], path, next);
        assert listed == [c] + rest;
        assert ListEntries(parent, names, path, next).0[k + 1] == rest[k];
      } else {
        assert ListEntries(parent, names, path, next).0[k] == rest[k];
      }
    }
  }


  /** `get_current_context_window`: opens the path (failing if a segment is
      missing) and lists the readable subkeys, which `names` enumerates. Every
      result shares `path` and is named as its subkey was created. */
  function GetCurrentContextWindow(root: Node, path: KeyPath, names: seq<string>, next: IdSupply)
    : (r: Result<(seq<CommandInfo>, IdSupply), ContextError>)
    reads path
    requires EnumeratesAt(root, path.segments, names)
    ensures r.Err? <==> Resolve(root, path.segments).Err?
    ensures r.Err? ==> r.error == Store(Resolve(root, path.segments).error)
    ensures r.Ok? ==> forall i :: 0 <= i < |r.value.0| ==>
      var parent := Resolve(root, path.segments).value;
      && r.value.0[i].path == path && Lists(parent, r.value.0[i])
      && Fold(r.value.0[i].folder) in parent.children
      && parent.children[Fold(r.value.0[i].folder)].name == r.value.0[i].folder
    ensures r.Ok? ==> forall i, j :: 0 <= i < j < |r.value.0| ==>
      Fold(r.value.0[i].folder) != Fold(r.value.0[j].folder)
  {
    match Resolve(root, path.segments)
    case Err(e) => Err(Store(e))
    case Ok(parent) =>
        Ok(ListEntries(parent, names, path, next))
  }

  /** The listing is exact: a subkey of the listed key is shown, under the name
      it was created with, exactly when its title, icon and command can all be read. */
  lemma ListingExact(root: Node, path: KeyPath, names: seq<string>, next: IdSupply)
    requires Resolve(root, path.segments).Ok?
    requires Enumerates(Resolve(root, path.segments).value, names)
    ensures var parent := Resolve(root, path.segments).value;
      var listed := GetCurrentContextWindow(root, path, names, next).value.0;
      forall k :: k in parent.children ==>
        (ReadEntry(parent, parent.children[k].name).Some? <==>
         exists i :: 0 <= i < |listed| && listed[i].folder == parent.children[k].name)
  {
    var parent := Resolve(root, path.segments).value;
    var listed := ListEntries(parent, names, path, next).0;
    forall k | k in parent.children
      ensures ReadEntry(parent, parent.children[k].name).Some? ==>
        exists i :: 0 <= i < |listed| && listed[i].folder == parent.children[k].name
    {
      var j :| 0 <= j < |names| && Fold(names[j]) == k;
      if ReadEntry(parent, names[j]).Some? {
        ListEntriesComplete(parent, names, path, next, names[j]);
      }
    }
  }

  /** `remove_from_context_window`: validates, opens the path and deletes the
      folder with everything beneath it; a missing folder is an error. */
  function RemoveFromContext(root: Node, cmd: CommandInfo): (r: Result<Node, ContextError>)
    reads cmd.path
    ensures r.Err? <==> !Valid(cmd) || Resolve(root, cmd.path.segments).Err?
                        || Fold(cmd.folder) !in Resolve(root, cmd.path.segments).value.children
    ensures r.Err? && !Valid(cmd) ==> r.error == Invalid
    ensures r.Err? && Valid(cmd) && Resolve(root, cmd.path.segments).Err? ==>
      r.error == Store(Resolve(root, cmd.path.segments).error)
    ensures r.Err? && Valid(cmd) && Resolve(root, cmd.path.segments).Ok? ==>
      r.error == Store(NotFound(cmd.folder))
  {
    if Validate(cmd).Fail? then Err(Invalid)
    else match Resolve(root, cmd.path.segments)
      case Err(e) => Err(Store(e))
      case Ok(parent) =>
        match DeleteSubkeyAll(parent, cmd.folder)
        case Err(e) => Err(Store(e))
        case Ok(parent') => Ok(Put(root, cmd.path.segments, parent'))
  }

  /** What one remove does: the folder's whole subtree is gone and the parent's
      values and other subkeys are as they were; the keys above the parent keep
      their names, values and subkeys, and nothing outside the path changes. */
  lemma RemoveEffect(root: Node, cmd: CommandInfo, other: seq<string>)
    requires RemoveFromContext(root, cmd).Ok?
    ensures Resolve(RemoveFromContext(root, cmd).value, cmd.path.segments).Ok?
    ensures
      var parent := Resolve(root, cmd.path.segments).value;
      var parent' := Resolve(RemoveFromContext(root, cmd).value, cmd.path.segments).value;
      && parent'.name == parent.name && parent'.values == parent.values
      && parent'.children.Keys == parent.children.Keys - {Fold(cmd.folder)}
      && forall name :: name in parent'.children ==> parent'.children[name] == parent.children[name]
    ensures Diverge(cmd.path.segments, other) ==>
      Resolve(RemoveFromContext(root, cmd).value, other) == Resolve(root, other)
    ensures Above(other, cmd.path.segments) ==>
      && Resolve(root, other).Ok? && Resolve(RemoveFromContext(root, cmd).value, other).Ok?
      && var before, after := Resolve(root, other).value, Resolve(RemoveFromContext(root, cmd).value, other).value;
      && after.name == before.name && after.values == before.values
      && after.children.Keys == before.children.Keys
  {
    var parent := Resolve(root, cmd.path.segments).value;
    var parent' := DeleteSubkeyAll(parent, cmd.folder).value;
    ResolvePut(root, cmd.path.segments, parent');
    if Diverge(cmd.path.segments, other) {
      PutFrame(root, cmd.path.segments, parent', other);
    }
    if Above(other, cmd.path.segments) {
      PutAbove(root, cmd.path.segments, parent', other);
    }
  }

  /** A readable subkey is listed under its stored name, whatever spelling it
      is looked up by. */
  lemma ReadableListed(parent: Node, names: seq<string>, path: KeyPath, next: IdSupply, folder: string)
    requires Enumerates(parent, names)
    requires Fold(folder) in parent.children && ReadEntry(parent, folder).Some?
    ensures var listed := ListEntries(parent, names, path, next).0;
      exists i :: 0 <= i < |listed| &&
        listed[i].folder == parent.children[Fold(folder)].name &&
        Some(Entry(listed[i].title, listed[i].icon, listed[i].command)) == ReadEntry(parent, folder)
  {
    var j :| 0 <= j < |names| && Fold(names[j]) == Fold(folder);
    ReadEntryFolds(parent, folder, names[j]);
    ListEntriesComplete(parent, names, path, next, names[j]);
    var listed := ListEntries(parent, names, path, next).0;
    var i :| 0 <= i < |listed| && listed[i].folder == names[j];
    assert Lists(parent, listed[i]);
  }

  /** After adding a command with a non-empty command line, listing its path
      shows it back with the same title, icon and command, under a new id. The
      folder is reported as the registry stores it: the existing subkey's
      spelling when one matched case-insensitively, else the folder as given. */
  lemma AddThenList(root: Node, cmd: CommandInfo, names: seq<string>, next: IdSupply)
    requires cmd.command != []
    requires AddToContext(root, cmd).Ok?
    requires EnumeratesAt(AddToContext(root, cmd).value, cmd.path.segments, names)
    ensures var listed := GetCurrentContextWindow(AddToContext(root, cmd).value, cmd.path, names, next);
      && listed.Ok?
      && exists i :: 0 <= i < |listed.value.0| &&
           var c := listed.value.0[i];
           && Fold(c.folder) == Fold(cmd.folder)
           && (Fold(cmd.folder) !in Resolve(root, cmd.path.segments).value.children ==> c.folder == cmd.folder)
           && c.title == cmd.title && c.icon == cmd.icon && c.command == cmd.command && c.path == cmd.path
  {
    var parent := Resolve(root, cmd.path.segments).value;
    var entry := WriteEntry(CreateSubkey(parent, cmd.folder), cmd);
    var parent' := SetChild(parent, cmd.folder, entry);
    ResolvePut(root, cmd.path.segments, parent');
    FixedNamesFold();
    assert ReadEntry(parent', cmd.folder) == Some(Entry(cmd.title, cmd.icon, cmd.command));
    assert entry.name == CreateSubkey(parent, cmd.folder).name;
    ReadableListed(parent', names, cmd.path, next, cmd.folder);
  }

  /** A command added with an empty command line to a folder that did not exist
      has no "command" key, so the listing never shows it under any spelling. */
  lemma AddEmptyCommandNotListed(root: Node, cmd: CommandInfo, names: seq<string>, next: IdSupply)
    requires cmd.command == []
    requires AddToContext(root, cmd).Ok?
    requires Fold(cmd.folder) !in Resolve(root, cmd.path.segments).value.children
    requires EnumeratesAt(AddToContext(root, cmd).value, cmd.path.segments, names)
    ensures var listed := GetCurrentContextWindow(AddToContext(root, cmd).value, cmd.path, names, next);
      listed.Ok? && forall i :: 0 <= i < |listed.value.0| ==> Fold(listed.value.0[i].folder) != Fold(cmd.folder)
  {
    AddEffect(root, cmd);
    var parent' := Resolve(AddToContext(root, cmd).value, cmd.path.segments).value;
    assert CommandKey !in parent'.children[Fold(cmd.folder)].children;
    assert ReadEntry(parent', cmd.folder) == None;
  }

  /** Removing a command right after adding it succeeds, the folder's subkey is
      gone, and the listing no longer shows it under any spelling. */
  lemma AddThenRemove(root: Node, cmd: CommandInfo, names: seq<string>, next: IdSupply)
    requires AddToContext(root, cmd).Ok?
    ensures var added := AddToContext(root, cmd).value;
      && RemoveFromContext(added, cmd).Ok?
      && var removed := RemoveFromContext(added, cmd).value;
      && Resolve(removed, cmd.path.segments).Ok?
      && Fold(cmd.folder) !in Resolve(removed, cmd.path.segments).value.children
      && (EnumeratesAt(removed, cmd.path.segments, names) ==>
            var listed := GetCurrentContextWindow(removed, cmd.path, names, next);
            && listed.Ok?
            && forall i :: 0 <= i < |listed.value.0| ==> Fold(listed.value.0[i].folder) != Fold(cmd.folder))
  {
    AddEffect(root, cmd);
    var added := AddToContext(root, cmd).value;
    RemoveEffect(added, cmd, []);
    var removed := RemoveFromContext(added, cmd).value;
    var parent' := Resolve(removed, cmd.path.segments).value;
  }
}

=== FILE: icon.dfy ===
/** `icon.rs`: the byte reorder applied to icon bitmaps read from Windows,
    which come as B,G,R,A and are displayed as R,G,B,A. */
module Icon {

  newtype byte = x: int | 0 <= x < 256

  /** The input offset the output byte at `i` is taken from: inside a complete
      4-byte group the first and third bytes trade places; trailing bytes stay. */
  function SourceIndex(i: nat, len: nat): nat
  {
    if i < len - len % 4 then
      match i % 4
      case 0 => i + 2
      case 2 => i - 2
      case _ => i
    else i
  }

  /** `out` is `inp` with the B and R byte of each complete pixel swapped. */
  predicate IsReordering(out: seq<byte>, inp: seq<byte>)
  {
    |out| == |inp| && forall i :: 0 <= i < |inp| ==> out[i] == inp[SourceIndex(i, |inp|)]
  }

  /** The source offsets of the group starting at `i`. */
  lemma GroupSources(i: nat, len: nat)
    requires i % 4 == 0 && i + 4 <= len
    ensures SourceIndex(i, len) == i + 2 && SourceIndex(i + 1, len) == i + 1
    ensures SourceIndex(i + 2, len) == i && SourceIndex(i + 3, len) == i + 3
  {
    assert i + 4 <= len - len % 4;
  }

  /** `bgra_to_rgba`. */
  method BgraToRgba(bgra: seq<byte>) returns (out: seq<byte>)
    ensures IsReordering(out, bgra)
  {
    out := [];
    var i := 0;
    var len := |bgra|;
    while i + 4 <= len
      invariant 0 <= i <= len && i % 4 == 0
      invariant |out| == i
      invariant forall j :: 0 <= j < i ==> out[j] == bgra[SourceIndex(j, len)]
    {
      GroupSources(i, len);
      out := out + [bgra[i + 2], bgra[i + 1], bgra[i], bgra[i + 3]];
      i := i + 4;
    }
    assert i == len - len % 4;
    if i < len {
      out := out + bgra[i..];
    }
  }

  /** Each complete group B,G,R,A comes out as R,G,B,A. */
  lemma ReorderingGroups(out: seq<byte>, inp: seq<byte>)
    requires IsReordering(out, inp)
    ensures forall i :: 0 <= i && i + 4 <= |inp| && i % 4 == 0 ==>
      out[i..i + 4] == [inp[i + 2], inp[i + 1], inp[i], inp[i + 3]]
  {
    forall i | 0 <= i && i + 4 <= |inp| && i % 4 == 0
      ensures out[i..i + 4] == [inp[i + 2], inp[i + 1], inp[i], inp[i + 3]]
    {
      GroupSources(i, |inp|);
      assert out[i] == inp[i + 2] && out[i + 1] == inp[i + 1];
      assert out[i + 2] == inp[i] && out[i + 3] == inp[i + 3];
    }
  }

  /** The trailing `len % 4` bytes are copied as they are, and the bytes at
      odd offsets (green and alpha) never move. */
  lemma ReorderingKeeps(out: seq<byte>, inp: seq<byte>)
    requires IsReordering(out, inp)
    ensures |out| == |inp|
    ensures out[|inp| - |inp| % 4..] == inp[|inp| - |inp| % 4..]
    ensures forall i :: 0 <= i < |inp| && i % 2 == 1 ==> out[i] == inp[i]
  {
    var m := |inp| - |inp| % 4;
    forall i | m <= i < |inp|
      ensures out[i] == inp[i]
    {
      assert SourceIndex(i, |inp|) == i;
    }
    assert out[m..] == inp[m..];
    forall i | 0 <= i < |inp| && i % 2 == 1
      ensures out[i] == inp[i]
    {
      assert SourceIndex(i, |inp|) == i;
    }
  }

  /** Taking a source offset twice leads back to where it started. */
  lemma SourceIndexInvolutive(i: nat, len: nat)
    requires i < len
    ensures SourceIndex(i, len) < len && SourceIndex(SourceIndex(i, len), len) == i
  {
    if i < len - len % 4 {
      var q, k := i / 4, len / 4;
      assert i == 4 * q + i % 4 && len - len % 4 == 4 * k;
      assert q < k;
      GroupSources(4 * q, len);
    }
  }

  /** The reorder undoes itself: reordering the output gives the input back. */
  lemma ReorderTwice(a: seq<byte>, b: seq<byte>)
    requires IsReordering(b, a)
    ensures IsReordering(a, b)
  {
    forall i | 0 <= i < |a|
      ensures a[i] == b[SourceIndex(i, |a|)]
    {
      SourceIndexInvolutive(i, |a|);
    }
  }
}

=== FILE: parsing.dfy ===
/** `parsing.rs`: turning titles into folder names and cleaning up the
    title and icon strings read back from the registry. */
module Parsing {
  import opened Base
  import opened Strings
  import opened Types

  /** `folderize_title`: the title with every space removed. */
  function FolderizeTitle(s: string): (r: string)
    ensures ' ' !in r
    ensures |r| <= |s|
    ensures forall c :: c != ' ' ==> multiset(r)[c] == multiset(s)[c]
    decreases |s|
  {
    if |s| == 0 then ""
    else
      assert s == [s[0]] + s[1..];
      (if s[0] == ' ' then "" else [s[0]]) + FolderizeTitle(s[1..])
  }

  /** Spaces are removed piecewise: the folder name of a concatenation is the
      concatenation of the folder names, so every other character keeps its place. */
  lemma {:induction false} FolderizeAppend(a: string, b: string)
    ensures FolderizeTitle(a + b) == FolderizeTitle(a) + FolderizeTitle(b)
    decreases |a|
  {
    if |a| > 0 {
      assert (a + b)[0] == a[0] && (a + b)[1..] == a[1..] + b;
      FolderizeAppend(a[1..], b);
    } else {
      assert a + b == b;
    }
  }

  /** A title is its own folder name exactly when it has no space. */
  lemma {:induction false} FolderizeFixed(s: string)
    ensures FolderizeTitle(s) == s <==> ' ' !in s
    decreases |s|
  {
    if |s| > 0 {
      FolderizeFixed(s[1..]);
      assert s == [s[0]] + s[1..];
    }
  }

  /** Folderizing twice is folderizing once. */
  lemma FolderizeIdempotent(s: string)
    ensures FolderizeTitle(FolderizeTitle(s)) == FolderizeTitle(s)
  {
    FolderizeFixed(FolderizeTitle(s));
  }

  /** The placeholder for the user's home directory. */
  const UserProfile := "%USERPROFILE%"

  /** `sanitize_path`: cut at the first ',' (an icon reference's resource
      index follows it), then replace everything up to and
      including the first "%USERPROFILE%" by the home directory. `home` is
      `env::home_dir()` as text; `None` when there is none or it is not UTF-8,
      in which case only the text after the placeholder is kept. */
  function SanitizePath(path: string, home: Option<string>): (r: string)
    ensures ',' !in path && Find(path, UserProfile).None? ==> r == path
    ensures home.None? ==> |r| <= |path|
  {
    var head := match IndexOf(path, ',') case None => path case Some(i) => path[..i];
    match Find(head, UserProfile)
    case None => head
    case Some(k) =>
      var rest := head[k + |UserProfile|..];
      match home
      case Some(dir) => dir + rest
      case None => rest
  }

  /** Whatever follows the first ',' never matters. */
  lemma SanitizeIgnoresAfterComma(a: string, b: string, home: Option<string>)
    requires ',' !in a
    ensures SanitizePath(a + "," + b, home) == SanitizePath(a, home)
  {
    IndexOfAfter(a, ',', b);
    assert (a + "," + b)[..|a|] == a;
  }

  /** With the placeholder at its first occurrence after `pre`, the result is
      the home directory (when available) followed by the text after it: `pre`
      is dropped. */
  lemma SanitizeExpandsProfile(pre: string, post: string, home: Option<string>)
    requires ',' !in pre + UserProfile + post
    requires forall j :: 0 <= j < |pre| ==> !OccursAt(pre + UserProfile + post, UserProfile, j)
    ensures SanitizePath(pre + UserProfile + post, home) ==
      (if home.Some? then home.value + post else post)
  {
    var s := pre + UserProfile + post;
    assert OccursAt(s, UserProfile, |pre|) by {
      assert s[|pre|..|pre| + |UserProfile|] == UserProfile;
    }
    assert Find(s, UserProfile) == Some(|pre|);
    assert s[|pre| + |UserProfile|..] == post;
  }

  /** `sanitize_command`: a new command (with a new id) whose title and icon
      are sanitized; command, folder and the shared path are kept. */
  function SanitizeCommand(cmd: CommandInfo, home: Option<string>, next: IdSupply)
    : (r: (CommandInfo, IdSupply))
    ensures r.0.title == SanitizePath(cmd.title, home) && r.0.icon == SanitizePath(cmd.icon, home)
    ensures r.0.command == cmd.command && r.0.folder == cmd.folder && r.0.path == cmd.path
    ensures r.1 > r.0.id >= next
    ensures cmd.id < next ==> Ne(r.0, cmd)
  {
    New(SanitizePath(cmd.title, home), SanitizePath(cmd.icon, home), cmd.command, cmd.folder,
        cmd.path, next)
  }
}

=== FILE: registry.dfy ===
/** The Windows registry as the `winreg` crate exposes it to the source: a key
    holds named string values and named subkeys. Value and subkey names are
    case-insensitive, so both are stored folded to lower case; a subkey also
    keeps the spelling it was created with, which is what enumeration reports.
    An empty subkey name stands for the key itself. */
module Registry {
  import opened Base
  import Strings

  /** A registry key: the name it was created with, value name (folded) to
      data, and subkey name (folded) to subkey. */
  datatype Node = Node(name: string, values: map<string, string>, children: map<string, Node>)

  /** A key just created by `create_subkey` under `name`: no values, no subkeys. */
  function Created(name: string): Node
  {
    Node(name, map[], map[])
  }

  /** Why a registry call failed. */
  datatype Error = NotFound(name: string)

  /** The stored form of a value or subkey name. */
  function Fold(name: string): (r: string)
    ensures |r| == |name|
  {
    Strings.Lower(name)
  }

  /** `RegKey::get_value`: the data under `name`, matched case-insensitively. */
  function GetValue(n: Node, name: string): (r: Option<string>)
    ensures r.Some? <==> Fold(name) in n.values
    ensures r.Some? ==> n.values[Fold(name)] == r.value
  {
    if Fold(name) in n.values then Some(n.values[Fold(name)]) else None
  }

  /** `RegKey::set_value`: writes `name`, leaving every other value, the key's
      name and all subkeys alone. */
  function SetValue(n: Node, name: string, data: string): (r: Node)
    ensures GetValue(r, name) == Some(data)
    ensures forall other :: Fold(other) != Fold(name) ==> GetValue(r, other) == GetValue(n, other)
    ensures r.name == n.name && r.children == n.children
  {
    n.(values := n.values[Fold(name) := data])
  }

  /** `RegKey::open_subkey`: an empty name opens the key itself; any other name
      opens the subkey it matches case-insensitively, or fails with `NotFound`. */
  function OpenSubkey(n: Node, name: string): (r: Result<Node, Error>)
    ensures name == "" ==> r == Ok(n)
    ensures name != "" ==> (r.Ok? <==> Fold(name) in n.children)
    ensures r.Err? ==> r.error == NotFound(name)
  {
    if name == "" then Ok(n)
    else if Fold(name) in n.children then Ok(n.children[Fold(name)])
    else Err(NotFound(name))
  }

  /** Two spellings that fold alike open the same key. */
  lemma OpenSubkeyFolds(n: Node, a: string, b: string)
    requires Fold(a) == Fold(b)
    ensures OpenSubkey(n, a).Ok? == OpenSubkey(n, b).Ok?
    ensures OpenSubkey(n, a).Ok? ==> OpenSubkey(n, a).value == OpenSubkey(n, b).value
  {
  }

  /** `RegKey::create_subkey`: the existing subkey matching `name`, or a new
      empty one called `name`. */
  function CreateSubkey(n: Node, name: string): (r: Node)
    ensures Fold(name) in n.children ==> r == n.children[Fold(name)]
    ensures Fold(name) !in n.children ==> r == Created(name)
  {
    if Fold(name) in n.children then n.children[Fold(name)] else Created(name)
  }

  /** Stores `child` as subkey `name` of `n`, the write-back of a change made under a subkey. */
  function SetChild(n: Node, name: string, child: Node): (r: Node)
    ensures r.name == n.name && r.values == n.values
    ensures r.children.Keys == n.children.Keys + {Fold(name)}
    ensures r.children[Fold(name)] == child
    ensures forall other :: other in n.children && other != Fold(name) ==> r.children[other] == n.children[other]
  {
    n.(children := n.children[Fold(name) := child])
  }

  /** `RegKey::delete_subkey_all`: drops the subkey matching `name` and everything beneath it. */
  function DeleteSubkeyAll(n: Node, name: string): (r: Result<Node, Error>)
    ensures r.Err? <==> Fold(name) !in n.children
    ensures r.Err? ==> r.error == NotFound(name)
    ensures r.Ok? ==> r.value.name == n.name && r.value.values == n.values
    ensures r.Ok? ==> r.value.children.Keys == n.children.Keys - {Fold(name)}
    ensures r.Ok? ==> forall other :: other in r.value.children ==> r.value.children[other] == n.children[other]
  {
    if Fold(name) in n.children then Ok(n.(children := n.children - {Fold(name)}))
    else Err(NotFound(name))
  }

  /** `names` is what `RegKey::enum_keys` reports for `n`: every subkey exactly
      once, under the name it was created with, in an order the registry picks. */
  predicate Enumerates(n: Node, names: seq<string>)
  {
    && (forall i :: 0 <= i < |names| ==>
          Fold(names[i]) in n.children && n.children[Fold(names[i])].name == names[i])
    && (forall k :: k in n.children ==> exists i :: 0 <= i < |names| && Fold(names[i]) == k)
    && (forall i, j :: 0 <= i < j < |names| ==> Fold(names[i]) != Fold(names[j]))
  }

  /** Opens `segs` one after the other from `root` with `open_subkey`; nothing is created. */
  function Resolve(root: Node, segs: seq<string>): Result<Node, Error>
    decreases |segs|
  {
    if |segs| == 0 then Ok(root)
    else match OpenSubkey(root, segs[0])
      case Err(e) => Err(e)
      case Ok(child) => Resolve(child, segs[1..])
  }

  /** Opening a path fails only at a real segment, and names it; a path of
      empty segments opens the starting key itself. */
  lemma {:induction false} ResolveFails(root: Node, segs: seq<string>)
    ensures Canon(segs) == [] ==> Resolve(root, segs) == Ok(root)
    ensures Resolve(root, segs).Err? ==>
      exists i :: 0 <= i < |segs| && segs[i] != "" && Resolve(root, segs).error == NotFound(segs[i])
    decreases |segs|
  {
    if |segs| > 0 && OpenSubkey(root, segs[0]).Ok? {
      ResolveFails(OpenSubkey(root, segs[0]).value, segs[1..]);
      assert forall i :: 1 <= i < |segs| ==> segs[1..][i - 1] == segs[i];
    }
  }

  /** When the key at `segs` opens, `names` is its enumeration. */
  predicate EnumeratesAt(root: Node, segs: seq<string>, names: seq<string>)
  {
    Resolve(root, segs).Ok? ==> Enumerates(Resolve(root, segs).value, names)
  }

  /** The keys a path walks through, as stored: empty segments dropped, the rest folded. */
  function Canon(segs: seq<string>): seq<string>
    decreases |segs|
  {
    if |segs| == 0 then []
    else if segs[0] == "" then Canon(segs[1..])
    else [Fold(segs[0])] + Canon(segs[1..])
  }

  /** Paths that walk through the same keys open the same key: case and empty
      segments do not matter. */
  lemma {:induction false} ResolveCanon(root: Node, p: seq<string>, q: seq<string>)
    requires Canon(p) == Canon(q)
    ensures Resolve(root, p).Ok? <==> Resolve(root, q).Ok?
    ensures Resolve(root, p).Ok? ==> Resolve(root, p).value == Resolve(root, q).value
    decreases |p| + |q|
  {
    if |p| > 0 && p[0] == "" {
      ResolveCanon(root, p[1..], q);
    } else if |q| > 0 && q[0] == "" {
      ResolveCanon(root, p, q[1..]);
    } else if |p| > 0 && |q| > 0 {
      assert Canon(p)[0] == Fold(p[0]) && Canon(q)[0] == Fold(q[0]);
      assert Canon(p[1..]) == Canon(p)[1..] && Canon(q[1..]) == Canon(q)[1..];
      if Fold(p[0]) in root.children {
        ResolveCanon(root.children[Fold(p[0])], p[1..], q[1..]);
      }
    }
  }

  /** The tree with the key at `segs` replaced by `n`; the path must resolve. */
  function Put(root: Node, segs: seq<string>, n: Node): Node
    requires Resolve(root, segs).Ok?
    decreases |segs|
  {
    if |segs| == 0 then n
    else if segs[0] == "" then Put(root, segs[1..], n)
    else SetChild(root, segs[0], Put(root.children[Fold(segs[0])], segs[1..], n))
  }

  /** The subkey `Put` descends into for a non-empty first segment. */
  function Step(root: Node, segs: seq<string>): Node
    requires |segs| > 0 && segs[0] != "" && Resolve(root, segs).Ok?
  {
    root.children[Fold(segs[0])]
  }

  /** Reading back a replaced key gives the new key. */
  lemma {:induction false} ResolvePut(root: Node, segs: seq<string>, n: Node)
    requires Resolve(root, segs).Ok?
    ensures Resolve(Put(root, segs, n), segs) == Ok(n)
    decreases |segs|
  {
    if |segs| > 0 {
      if segs[0] == "" {
        ResolvePut(root, segs[1..], n);
      } else {
        ResolvePut(Step(root, segs), segs[1..], n);
      }
    }
  }

  /** Writing back the key that is already there changes nothing. */
  lemma {:induction false} PutResolved(root: Node, segs: seq<string>)
    requires Resolve(root, segs).Ok?
    ensures Put(root, segs, Resolve(root, segs).value) == root
    decreases |segs|
  {
    if |segs| > 0 {
      if segs[0] == "" {
        PutResolved(root, segs[1..]);
      } else {
        PutResolved(Step(root, segs), segs[1..]);
      }
    }
  }

  /** A second replacement at the same place overrides the first. */
  lemma {:induction false} PutPut(root: Node, segs: seq<string>, a: Node, b: Node)
    requires Resolve(root, segs).Ok?
    ensures Resolve(Put(root, segs, a), segs).Ok?
    ensures Put(Put(root, segs, a), segs, b) == Put(root, segs, b)
    decreases |segs|
  {
    ResolvePut(root, segs, a);
    if |segs| > 0 {
      if segs[0] == "" {
        PutPut(root, segs[1..], a, b);
      } else {
        PutPut(Step(root, segs), segs[1..], a, b);
      }
    }
  }

  /** Neither path walks through the other's key: they address disjoint subtrees. */
  predicate Diverge(p: seq<string>, q: seq<string>)
  {
    var a := Canon(p);
    var b := Canon(q);
    exists i :: 0 <= i < |a| && i < |b| && a[i] != b[i] && a[..i] == b[..i]
  }

  /** Replacing the key at `segs` leaves every path that diverges from `segs`
      resolving exactly as before: a change at one place is invisible elsewhere. */
  lemma {:induction false} PutFrame(root: Node, segs: seq<string>, n: Node, other: seq<string>)
    requires Resolve(root, segs).Ok?
    requires Diverge(segs, other)
    ensures Resolve(Put(root, segs, n), other) == Resolve(root, other)
    decreases |segs| + |other|
  {
    var a := Canon(segs);
    var b := Canon(other);
    var i :| 0 <= i < |a| && i < |b| && a[i] != b[i] && a[..i] == b[..i];
    if segs[0] == "" {
      assert Canon(segs[1..]) == a;
      PutFrame(root, segs[1..], n, other);
    } else if other[0] == "" {
      assert Canon(other[1..]) == b;
      PutFrame(root, segs, n, other[1..]);
    } else {
      assert a[0] == Fold(segs[0]) && b[0] == Fold(other[0]);
      if i > 0 {
        assert a[0] == a[..i][0] && b[0] == b[..i][0];
        var a', b' := Canon(segs[1..]), Canon(other[1..]);
        assert a' == a[1..] && b' == b[1..];
        assert a'[i - 1] == a[i] && b'[i - 1] == b[i];
        assert a'[..i - 1] == a[..i][1..] && b'[..i - 1] == b[..i][1..];
        assert Diverge(segs[1..], other[1..]);
        PutFrame(Step(root, segs), segs[1..], n, other[1..]);
      }
    }
  }

  /** `q` walks through some, but not all, of the keys `segs` walks through. */
  predicate Above(q: seq<string>, segs: seq<string>)
  {
    |Canon(q)| < |Canon(segs)| && Canon(q) == Canon(segs)[..|Canon(q)|]
  }

  /** Replacing the key at `segs` keeps every key above it, the root included,
      with its name, its values and its set of subkeys: only the subkey on the
      way down is replaced. */
  lemma {:induction false} PutAbove(root: Node, segs: seq<string>, n: Node, q: seq<string>)
    requires Resolve(root, segs).Ok?
    requires Above(q, segs)
    ensures Resolve(root, q).Ok? && Resolve(Put(root, segs, n), q).Ok?
    ensures var before, after := Resolve(root, q).value, Resolve(Put(root, segs, n), q).value;
      && after.name == before.name && after.values == before.values
      && after.children.Keys == before.children.Keys
    decreases |segs| + |q|
  {
    var a := Canon(segs);
    var b := Canon(q);
    if segs[0] == "" {
      assert Canon(segs[1..]) == a;
      PutAbove(root, segs[1..], n, q);
    } else if |q| > 0 && q[0] == "" {
      assert Canon(q[1..]) == b;
      PutAbove(root, segs, n, q[1..]);
    } else if |q| > 0 {
      assert a[0] == Fold(segs[0]) && b[0] == Fold(q[0]);
      assert b[0] == a[..|b|][0];
      var a', b' := Canon(segs[1..]), Canon(q[1..]);
      assert a' == a[1..] && b' == b[1..];
      assert b' == a'[..|b'|];
      PutAbove(Step(root, segs), segs[1..], n, q[1..]);
    }
  }

  /** Resolving `p + q` is resolving `p`, then `q` from there. */
  lemma {:induction false} ResolveAppend(root: Node, p: seq<string>, q: seq<string>)
    ensures Resolve(root, p + q) ==
      match Resolve(root, p)
      case Err(e) => Err(e)
      case Ok(n) => Resolve(n, q)
    decreases |p|
  {
    if |p| > 0 {
      assert (p + q)[0] == p[0] && (p + q)[1..] == p[1..] + q;
      if OpenSubkey(root, p[0]).Ok? {
        ResolveAppend(OpenSubkey(root, p[0]).value, p[1..], q);
      }
    } else {
      assert p + q == q;
    }
  }
}

=== FILE: strings.dfy ===
/** String primitives of Rust's `str` that the model relies on: `find`,
    `split_once`, `split`, `join` and ASCII case folding. */
module Strings {
  import opened Base

  /** Index of the first `c` in `s` (`str::find` with a char pattern). */
  function IndexOf(s: string, c: char): (r: Option<nat>)
    ensures r.None? <==> c !in s
    ensures r.Some? ==> r.value < |s| && s[r.value] == c
    ensures r.Some? ==> forall j :: 0 <= j < r.value ==> s[j] != c
  {
    if |s| == 0 then None
    else if s[0] == c then Some(0)
    else match IndexOf(s[1..], c)
      case None => None
      case Some(i) => Some(i + 1)
  }

  /** `c` sits right after a prefix that does not contain it, so the first `c` is there. */
  lemma {:induction false} IndexOfAfter(a: string, c: char, b: string)
    requires c !in a
    ensures IndexOf(a + [c] + b, c) == Some(|a|)
    decreases |a|
  {
    if |a| > 0 {
      IndexOfAfter(a[1..], c, b);
      assert (a + [c] + b)[1..] == a[1..] + [c] + b;
    }
  }

  /** `pat` occurs in `s` starting at index `k`. */
  predicate OccursAt(s: string, pat: string, k: nat)
  {
    k + |pat| <= |s| && s[k..k + |pat|] == pat
  }

  /** First occurrence of `pat` in `s` at an index no smaller than `k`
      (`str::find` with a string pattern when `k` is 0). */
  function Find(s: string, pat: string, k: nat := 0): (r: Option<nat>)
    decreases |s| - k
    ensures r.Some? ==> k <= r.value && OccursAt(s, pat, r.value)
    ensures r.Some? ==> forall j :: k <= j < r.value ==> !OccursAt(s, pat, j)
    ensures r.None? ==> forall j :: k <= j ==> !OccursAt(s, pat, j)
  {
    if k + |pat| > |s| then None
    else if s[k..k + |pat|] == pat then Some(k)
    else Find(s, pat, k + 1)
  }

  /** `str::split` with a char separator: `n` separators give `n + 1` pieces, none containing it. */
  function Split(s: string, sep: char): (r: seq<string>)
    ensures |r| == multiset(s)[sep] + 1
    ensures forall i :: 0 <= i < |r| ==> sep !in r[i]
    decreases |s|
  {
    match IndexOf(s, sep)
    case None =>
      assert multiset(s)[sep] == 0;
      [s]
    case Some(i) =>
      assert s == s[..i] + [sep] + s[i + 1..];
      assert multiset(s) == multiset(s[..i]) + multiset{sep} + multiset(s[i + 1..]) by {
        calc {
          multiset(s);
          multiset(s[..i] + [sep] + s[i + 1..]);
          multiset(s[..i] + [sep]) + multiset(s[i + 1..]);
        }
      }
      [s[..i]] + Split(s[i + 1..], sep)
  }

  /** `<[String]>::join`: the parts with `sep` between neighbours. */
  function Join(parts: seq<string>, sep: string): (r: string)
    ensures |parts| == 0 ==> r == ""
    ensures |parts| > 0 ==> |parts[0]| <= |r| && r[..|parts[0]|] == parts[0]
    ensures |parts| > 1 ==> |parts[0]| + |sep| <= |r| && r[|parts[0]|..|parts[0]| + |sep|] == sep
    decreases |parts|
  {
    if |parts| == 0 then ""
    else if |parts| == 1 then parts[0]
    else parts[0] + sep + Join(parts[1..], sep)
  }

  /** Joining the pieces of a split restores the string. */
  lemma {:induction false} JoinSplit(s: string, sep: char)
    ensures Join(Split(s, sep), [sep]) == s
    decreases |s|
  {
    match IndexOf(s, sep)
    case None =>
    case Some(i) =>
      JoinSplit(s[i + 1..], sep);
      assert s == s[..i] + [sep] + s[i + 1..];
  }

  /** Splitting a join of separator-free parts gives the parts back. */
  lemma {:induction false} SplitJoin(parts: seq<string>, sep: char)
    requires |parts| > 0
    requires forall i :: 0 <= i < |parts| ==> sep !in parts[i]
    ensures Split(Join(parts, [sep]), sep) == parts
    decreases |parts|
  {
    if |parts| > 1 {
      var rest := Join(parts[1..], [sep]);
      IndexOfAfter(parts[0], sep, rest);
      var s := parts[0] + [sep] + rest;
      assert s[..|parts[0]|] == parts[0];
      assert s[|parts[0]| + 1..] == rest;
      assert Join(parts, [sep]) == s;
      assert Split(s, sep) == [parts[0]] + Split(rest, sep);
      SplitJoin(parts[1..], sep);
      assert parts == [parts[0]] + parts[1..];
    }
  }

  /** ASCII lower-casing of one character. */
  function LowerChar(c: char): char
  {
    if 'A' <= c <= 'Z' then (c as int + 32) as char else c
  }

  /** ASCII lower-casing of a string, used to fold case-insensitive names. */
  function Lower(s: string): (r: string)
    ensures |r| == |s|
    ensures forall i :: 0 <= i < |s| ==> r[i] == LowerChar(s[i])
  {
    seq(|s|, i requires 0 <= i < |s| => LowerChar(s[i]))
  }
}

=== FILE: types.dfy ===
/** The entities of `edit_context_lib/types.rs`: the shared mutable key path,
    the context-menu command record and the configured registry key. */
module Types {
  import Strings

  /** `KeyPath = Rc<RefCell<Box<[Box<str>]>>>`: a segment array shared by reference.
      Copying a reference to a `KeyPath` is `Rc::clone`; every holder of the same
      reference sees a change made through any of them. */
  class KeyPath {
    var segments: seq<string>

    constructor (segs: seq<string>)
      ensures segments == segs
    {
      segments := segs;
    }
  }

  /** A `ContextCommandInfo<String, String, String, String>`. The `id` stands for
      the UUID drawn by `new`; ids are handed out by a counter (`IdSupply`). */
  datatype CommandInfo = CommandInfo(
    id: nat,
    title: string,
    icon: string,
    command: string,
    folder: string,
    path: KeyPath)

  /** The next unused id: every id issued so far is below it. */
  type IdSupply = nat

  /** All of `cmds` carry ids issued before `next`. */
  predicate IssuedBefore(cmds: seq<CommandInfo>, next: IdSupply)
  {
    forall i :: 0 <= i < |cmds| ==> cmds[i].id < next
  }

  /** `ContextCommandInfo::new`: the given fields and a fresh id; returns the advanced supply. */
  function New(title: string, icon: string, command: string, folder: string, path: KeyPath,
               next: IdSupply): (r: (CommandInfo, IdSupply))
    ensures r.0.title == title && r.0.icon == icon && r.0.command == command
    ensures r.0.folder == folder && r.0.path == path
    ensures r.1 > r.0.id >= next
  {
    (CommandInfo(next, title, icon, command, folder, path), next + 1)
  }

  /** `PartialEq::eq`: two commands are the same command exactly when their ids agree. */
  function Eq(a: CommandInfo, b: CommandInfo): (r: bool)
    ensures r <==> a.id == b.id
  {
    a.id == b.id
  }

  /** `PartialEq::ne`, written out separately in the source. */
  function Ne(a: CommandInfo, b: CommandInfo): (r: bool)
    ensures r <==> !Eq(a, b)
  {
    a.id != b.id
  }

  /** `ne` is the negation of `eq`, and `eq` ignores every field but the id. */
  lemma EqIsIdentity(a: CommandInfo, b: CommandInfo)
    ensures Ne(a, b) <==> !Eq(a, b)
    ensures Eq(a, b) <==> Eq(a.(title := b.title, icon := b.icon, command := b.command,
                                  folder := b.folder, path := b.path), b)
    ensures a.id == b.id ==> Eq(a, b)
  {
  }

  /** A command built by `new` is different from every command built before it,
      and the supply stays ahead of all ids, the new one included. */
  lemma NewIsFresh(existing: seq<CommandInfo>, next: IdSupply,
                   title: string, icon: string, command: string, folder: string, path: KeyPath)
    requires IssuedBefore(existing, next)
    ensures var (c, next') := New(title, icon, command, folder, path, next);
      (forall i :: 0 <= i < |existing| ==> Ne(c, existing[i])) &&
      IssuedBefore(existing + [c], next')
  {
  }

  /** `KeyProps`. */
  datatype KeyProps = NoProps | HasExt

  /** `KeyProps::from`: the exact string "HasExt" selects `HasExt`, anything else `None`. */
  function PropsFrom(s: string): (r: KeyProps)
    ensures r == HasExt <==> s == "HasExt"
    ensures r == NoProps <==> s != "HasExt"
  {
    if s == "HasExt" then HasExt else NoProps
  }

  /** `Key`: a named registry location with its (shared) path and properties. */
  datatype Key = Key(name: string, path: KeyPath, props: KeyProps)

  /** `Key::new`: the name, a new empty path and no properties. */
  method NewKey(name: string) returns (k: Key)
    ensures fresh(k.path)
    ensures k.name == name && k.path.segments == [] && k.props == NoProps
  {
    var p := new KeyPath([]);
    k := Key(name, p, NoProps);
  }

  /** The segments `with_path` stores for a `/`-separated path. */
  function PathSegments(path: string): (r: seq<string>)
    ensures |r| == multiset(path)[('/')] + 1
    ensures forall i :: 0 <= i < |r| ==> '/' !in r[i]
    ensures Strings.Join(r, "/") == path
  {
    Strings.JoinSplit(path, '/');
    Strings.Split(path, '/')
  }

  /** `Key::with_path`: a new path cell holding the `/`-split segments. */
  method WithPath(k: Key, path: string) returns (k': Key)
    ensures fresh(k'.path)
    ensures k'.path.segments == PathSegments(path)
    ensures k'.name == k.name && k'.props == k.props
  {
    var p := new KeyPath(PathSegments(path));
    k' := k.(path := p);
  }

  /** `Key::with_props`. */
  function WithProps(k: Key, props: KeyProps): (k': Key)
    ensures k'.props == props && k'.name == k.name && k'.path == k.path
  {
    k.(props := props)
  }

  /** `Key::clone_path`: the same cell, not a copy. */
  function ClonePath(k: Key): (p: KeyPath)
    ensures p == k.path
  {
    k.path
  }

  /** `Key::with_extension`. With `HasExt` it overwrites segment 0 of the shared
      cell in place (the source indexes `[0]` and panics on an empty path);
      otherwise it changes nothing. */
  method WithExtension(k: Key, ext: string) returns (k': Key)
    requires k.props == HasExt ==> |k.path.segments| > 0
    modifies k.path
    ensures k' == k
    ensures k.props == NoProps ==> k.path.segments == old(k.path.segments)
    ensures k.props == HasExt ==> k.path.segments == old(k.path.segments)[0 := ext]
  {
    if k.props == HasExt {
      k.path.segments := k.path.segments[0 := ext];
    }
    k' := k;
  }

  /** `Key::deep_clone`: same name, properties and segments in a new cell. */
  method DeepClone(k: Key) returns (k': Key)
    ensures fresh(k'.path)
    ensures k'.name == k.name && k'.props == k.props
    ensures k'.path.segments == k.path.segments
  {
    var p := new KeyPath(k.path.segments);
    k' := Key(k.name, p, k.props);
  }

  /** An extension written through a key is seen by every key sharing its path
      cell, as with `key.clone().with_extension(..)` in the menu. */
  method ExtensionIsShared(k: Key, alias: Key, ext: string)
    requires k.props == HasExt && |k.path.segments| > 0
    requires alias.path == ClonePath(k)
    modifies k.path
    ensures alias.path.segments == old(k.path.segments)[0 := ext]
  {
    var k' := WithExtension(k, ext);
  }

  /** An extension written through a deep clone leaves the original untouched,
      as when the heading selects `key.deep_clone()` before editing its extension. */
  method DeepCloneIsolates(k: Key, ext: string) returns (c: Key)
    requires k.props == HasExt && |k.path.segments| > 0
    ensures fresh(c.path)
    ensures c.path.segments == k.path.segments[0 := ext]
  {
    var copy := DeepClone(k);
    c := WithExtension(copy, ext);
  }
}
